=== FILE: README.md ===
# AI crowd monitoring: a Dafny model of the monitoring core

This project models the decision logic of a camera-based crowd monitor. The
monitor reads frames from a camera, runs a person detector and a face
detector, and turns the detections into crowd statistics. It also serves two
model wrappers: a crowd-analytics scorer and a violence-indicator scorer. The
model covers:

- **Monitor** (`monitor.dfy`): the `CrowdMonitoringSystem` class.
  - It is a state machine over `modelsLoaded`, `isInitializing` and
    `isMonitoring`.
  - Model loading is lazy, with five progress reports.
  - `start_monitoring` runs a ten-call camera check; `stop_monitoring`
    resets the statistics.
  - One pass of the processing loop counts failures and frames, runs the
    detectors on every tenth frame, and publishes at most once per second.
  - Everything published to web clients is an event log (`events`).
- **Aggregator** (`aggregator.dfy`): the pure tiering rules of the
  application (density, alert level, activity text) and the
  loading-progress percentage.
- **Video** (`video_processor.dfy`): the `VideoProcessor` frame source over
  an abstract `Camera` device.
  - The device says which capture backends open it and what size it
    reports back.
  - It also fixes the outcome of each successive read (`feed(n)`).
  - On top of it: backend fallback, resolution negotiation, warm-up and test
    reads, bounded re-reads in `get_frame`, and idempotent stop.
- **CrowdAnalytics** (`crowd_analytics.dfy`) and **Violence**
  (`violence.dfy`): the two scoring functions, each as a method built up step
  by step as in the source and proved equal to a specification function.
  Each also models its `predict` (per-item loop, resp. input dispatch).
- **FaceDetection** and **PersonDetection** (`face_detector.dfy`,
  `yolo_detector.dfy`): post-processing of the opaque models' raw output.
  This is the strict confidence filter (order kept), clamping or truncation,
  and class tagging.
- **Shared modules**:
  - **Geometry**: box centres, the closeness test, close-pair counting, areas
    and mean confidences.
  - **Inputs**: request-item key precedence and decoding outcomes.
  - **Text**: decimal rendering of counts.
  - **Common**: frames, boxes, detections, counting, order-preserving
    selection and first match.

**Exact arithmetic.** Decimal constants are scaled to exact integers:

- The alert weight `p + 0.3·f` is compared in tenths (`10p + 3f` against 30
  and 60).
- Congestion and risk are counted in tenths. The violence score is counted
  in twentieths (0.1 = 2, 0.15 = 3, 0.2 = 4, 0.3 = 6, 1.0 = 20).
- Ratios are compared by cross-multiplication.
- Distances are compared squared, on doubled centres:
  `100·(dx² + dy²) < 9·min(w, h)²`.

Lemmas tie each scaled test back to the source's decimal test on reals
(`CalculateAlertLevel`, `EngagementByRatio`, `CloseIsNormalizedDistance`,
`AtEdgeIsCentreTest`, `LargePeopleIsMeanArea`).

Three behaviours of the code are worth stating plainly:

- If loading fails at the person or face detector, the new frame source
  (and the person detector) built by earlier steps stay assigned; nothing is
  discarded.
- A progress report is published *before* each loading step, so a failing
  step still has its report.
- Face boxes are clamped only on their outer bounds, so `x1 < x2` is not
  guaranteed; `ClampDoesNotOrderCorners` gives a box with `x1 > x2`.

## Model

| member | source | states |
|---|---|---|
| Aggregator.CrowdDensity | app.py:282-290 | EMPTY exactly for 0 people, LOW exactly for 1-2, MEDIUM exactly for 3-5, HIGH exactly for 6 and more |
| Aggregator.CrowdDensityMonotone | app.py:282-290 | more people never give a lower density tier |
| Aggregator.CrowdDensityExamples | app.py:282-290 | the tier at each boundary count (0, 1, 2, 3, 5, 6, 11) |
| Aggregator.CalculateAlertLevel | app.py:292-301 | with the real weight `p + 0.3·f`: NORMAL exactly when it is at most 3, CAUTION exactly when it is in (3, 6], ALERT exactly when it is above 6 |
| Aggregator.AlertLevelMonotone | app.py:292-301 | more people or more faces never lower the alert level |
| Aggregator.AlertLevelExamples | app.py:292-301 | (3,0) is NORMAL, (5,5) is ALERT, (0,10) is NORMAL, (4,0) is CAUTION |
| Aggregator.ActivityDescription | app.py:303-311 | exactly one of four phrasings, chosen by which counts are zero, with each non-zero count written in decimal in its place |
| Aggregator.ActivityDescriptionInjective | app.py:303-311 | different count pairs never produce the same description, so the text determines both counts |
| Aggregator.DescriptionStart | app.py:304-311 | a description starts with a digit exactly when some count is non-zero |
| Aggregator.LeadTailSplit | app.py:306-311 | a non-empty-area description is the decimal first count followed by the rest of its phrasing |
| Aggregator.TailMarkers | app.py:307-311 | after the leading number, the phrasings differ at fixed positions: faces-only from the person phrasings, persons-only from persons-and-faces |
| Aggregator.TailInjective | app.py:306-311 | equal text after the leading number means the same zero pattern and, with people present, the same face count |
| Aggregator.ProgressPercent | app.py:62 | the percentage is the floor of `step·100/total` and at most 100 when `step ≤ total` |
| Aggregator.ProgressOfFiveSteps | app.py:85-109 | steps 1 to 5 of 5 report 20, 40, 60, 80 and 100 |
| Common.TruncBounds | src/detection/yolo_detector.py:62 | `int()` of a float moves toward zero by less than one |
| Common.CountSplit | src/models/model_registry.py:212-222 | when each element satisfies exactly one of two tests, the two counts add up to the length |
| Common.SelectedIsOrderedSubsequence | src/detection/face_detector.py:54-84 | filtering keeps exactly the elements that pass, at strictly increasing positions, so order is preserved and nothing that passes is lost |
| Common.FirstIndex | src/utils/video_processor.py:34-45 | the position of the first element that passes a test: every earlier one fails it, and it is the length when none passes |
| Text.NatToString | app.py:307 | `str(n)`: a non-empty digit string, one digit exactly for n below 10 |
| Text.ParseNatToString | app.py:307-311 | reading the decimal text of a count back gives the count |
| Text.NatToStringInjective | app.py:307-311 | different counts are written differently |
| Inputs.SelectSource | src/models/model_registry.py:64-75 | key precedence image_path, then image_data, then image_array, and no source exactly when none of the three is present |
| Inputs.SourceIgnoresLaterKeys | mlflow_setup/mlflow_model_registry.py:50-60 | with image_path present, the other keys never change the choice |
| Inputs.ItemDecoder | src/models/model_registry.py:64-75 | `LoadImage` applied to an item's source: the file reader for image_path, else base64 decoding for image_data, else the array conversion |
| Inputs.DimensionsText | src/models/model_registry.py:113 | the dimensions text is the width's digits, the letter x, then the height's digits; the two digit runs read back as the width and the height |
| Inputs.DimensionsTextInjective | src/models/model_registry.py:113 | the dimensions text determines width and height |
| Geometry.Center | src/models/model_registry.py:281-283 | `get_bbox_center`: the centre lies between the corners on each axis of an ordered box |
| Geometry.MinDim | src/models/model_registry.py:186 | `min(width, height)` |
| Geometry.CloseIsNormalizedDistance | src/models/model_registry.py:183-188 | the integer closeness test holds exactly when the squared centre distance is below `(0.15·min(w, h))²`, that is when the normalised distance is below 0.15 |
| Geometry.ClosePairsBound | src/models/model_registry.py:180-189 | n people have at most n·(n-1)/2 close pairs, so fewer than two have none |
| Geometry.ClosePairsNone | mlflow_setup/mlflow_model_registry.py:130-143 | people pairwise far apart give no close pair |
| Geometry.CountClosePairs | src/models/model_registry.py:181-189 | the nested loop over pairs i < j counts exactly the close pairs |
| Geometry.AreaSum | src/models/model_registry.py:234-237 | the total box area is non-negative when every box has ordered corners |
| Geometry.Boxes | src/models/model_registry.py:236 | the boxes of the detections, one per detection, in order |
| Geometry.MeanConfidence | src/models/model_registry.py:116-117 | the average confidence is 0.0 for an empty list |
| Geometry.MeanConfidenceAbove | src/models/model_registry.py:116-117 | detections all above a threshold average above it |
| FaceDetection.ClampedBox | src/detection/face_detector.py:64-73 | pixel box from relative coordinates: x1 = max(0, trunc(xmin·w)) and y1 likewise; x2 is x1 plus the truncated width, capped at w (y2 likewise, capped at h); so x1, y1 ≥ 0 and x2 ≤ w, y2 ≤ h, while the corner itself may lie beyond the frame |
| FaceDetection.FacesFrom | src/detection/face_detector.py:75-81 | each kept raw result becomes one face detection, in order |
| FaceDetection.DetectedFaces | src/detection/face_detector.py:32-95 | empty for a missing frame or a model error; never longer than the raw list; every face is tagged "face", scores strictly above the threshold and has x1, y1 ≥ 0 and x2 ≤ w, y2 ≤ h |
| FaceDetection.DetectedFacesInOrder | src/detection/face_detector.py:54-84 | the faces are exactly the raw results scoring above the threshold, converted, in their original order |
| FaceDetection.DetectFaces | src/detection/face_detector.py:32-95 | the filtering loop returns exactly `DetectedFaces` |
| FaceDetection.ClampDoesNotOrderCorners | src/detection/face_detector.py:69-73 | a face reported past the right edge yields a box with x1 = 150 > x2 = 100 |
| PersonDetection.FirstBoxes | src/detection/yolo_detector.py:48-53 | only the first result object's boxes are looked at; none on a model error, with no result object, or when the first result's box list is absent |
| PersonDetection.PersonsFrom | src/detection/yolo_detector.py:60-65 | each kept box becomes one person detection with truncated corners, in order |
| PersonDetection.DetectedPersons | src/detection/yolo_detector.py:27-84 | empty for a missing frame, a model error, no result object or an absent box list on the first result; never longer than the first result's boxes; every person is tagged "person" and scores strictly above 0.3 |
| PersonDetection.DetectedPersonsInOrder | src/detection/yolo_detector.py:57-66 | the persons are exactly the first result's boxes scoring above 0.3, converted, in their original order |
| PersonDetection.OnlyFirstResultUsed | src/detection/yolo_detector.py:48-49 | two runs with the same first result object give the same persons |
| PersonDetection.DetectPersons | src/detection/yolo_detector.py:27-84 | the filtering loop returns exactly `DetectedPersons` |
| Video.FirstSuccess | src/utils/video_processor.py:94-107 | the first read within a budget that yields a frame: its offset is within the budget and that read yields one |
| Video.FirstSuccessMisses | src/utils/video_processor.py:94-107 | every read before the first success comes back empty, and with no success all reads in the budget do |
| Video.FirstSuccessWithin | src/utils/video_processor.py:94-107 | any read yielding a frame within the budget makes the search succeed |
| Video.FirstSuccessNone | src/utils/video_processor.py:94-107 | all reads empty means no success |
| Video.FirstSuccessIs | src/utils/video_processor.py:94-107 | the search finds exactly the first yielding read |
| Video.FirstSuccessAppend | app.py:153-160 | after a run of empty reads, a frame turns up in the longer budget exactly when it turns up in the reads that follow |
| Video.FirstSuccessExtend | app.py:153-160 | a larger budget does not change a search that already succeeds |
| Video.ChosenApi | src/utils/video_processor.py:28-49 | the first of DSHOW, MSMF, ANY that opens, and the default backend exactly when none of them opens |
| Video.ChosenApiOpens | src/utils/video_processor.py:47-52 | the capture is open exactly when some listed backend or the default backend opens |
| Video.SizeLeftSet | src/utils/video_processor.py:58-74 | the size request left in force is the first of (640,480), (1280,720), (320,240) whose read-back width and height are both positive, or the last one tried when none is |
| Video.CaptureOutcome | src/utils/video_processor.py:17-118 | a successful start consumes the ten warm-up reads, at least one and at most ten test reads, and the five grabs |
| Video.CaptureOutcomeReads | src/utils/video_processor.py:51-109 | the start succeeds exactly when the capture opens and one of the ten test reads after the warm-up yields a frame; it stops at the first such read, every earlier test read having come back empty |
| Video.Camera.Read | src/utils/video_processor.py:95 | `cap.read()` returns the next outcome of the feed and advances the read position by one |
| Video.Camera.Grab | src/utils/video_processor.py:100 | `cap.grab()` consumes one outcome |
| Video.Camera.RequestSize | src/utils/video_processor.py:65-70 | after a size request the device holds the size it reports back for it |
| Video.AfterStop | src/utils/video_processor.py:120-129 | after stopping: not running, not frame-ready, no capture, current frame kept |
| Video.StopIdempotent | src/utils/video_processor.py:120-129 | stopping twice is stopping once |
| Video.ReadRetrying | src/utils/video_processor.py:137-150 | one read plus up to three re-reads: the frame of the first yielding read and the reads consumed, or nothing after four empty reads |
| Video.VideoProcessor.constructor | src/utils/video_processor.py:7-15 | a new processor holds no capture, is not running or frame-ready and has no frame |
| Video.VideoProcessor.OpenCapture | src/utils/video_processor.py:28-49 | opens on the backend `ChosenApi` gives; the capture is open exactly when that backend opens |
| Video.VideoProcessor.ConfigureResolution | src/utils/video_processor.py:58-74 | requests sizes in order and stops at the first whose read-back width and height are positive, leaving the device at that size, or at the last one tried |
| Video.VideoProcessor.FlushFrames | src/utils/video_processor.py:86-88 | the warm-up discards exactly ten reads |
| Video.VideoProcessor.TestCapture | src/utils/video_processor.py:94-109 | succeeds exactly when one of ten test reads yields a frame; then five grabs clear the buffer; otherwise all ten reads are consumed |
| Video.VideoProcessor.StartCapture | src/utils/video_processor.py:17-118 | fails with no capture when no backend opens; otherwise negotiates the size, flushes ten reads and succeeds exactly when a test read yields a frame; running exactly on success, and any failure leaves no capture and both flags cleared |
| Video.VideoProcessor.StopCapture | src/utils/video_processor.py:120-129 | the new state is `AfterStop` of the old one |
| Video.VideoProcessor.GetFrame | src/utils/video_processor.py:131-160 | returns nothing without reading unless running with an open capture; otherwise returns the first frame among up to four reads and keeps it as the current frame, or returns nothing with the current frame unchanged |
| Video.VideoProcessor.IsCameraWorking | src/utils/video_processor.py:171-173 | under the processor's invariant the camera is working exactly when it is running |
| CrowdAnalytics.Tier | src/models/model_registry.py:158-176 | EMPTY for 0 people, LOW for 1-2, MEDIUM for 3-5, HIGH for 6-10, VERY_HIGH above 10, each exactly |
| CrowdAnalytics.Congestion | src/models/model_registry.py:158-176 | congestion 0.0 exactly for EMPTY, 0.2 exactly for LOW, 0.5 exactly for MEDIUM, 0.8 exactly for HIGH, 1.0 exactly for VERY_HIGH; at most 1.0, and above 0.8 only for VERY_HIGH |
| CrowdAnalytics.TierFlags | src/models/model_registry.py:158-176 | at most one density flag: no_customers exactly for EMPTY, moderate_traffic exactly for MEDIUM, busy_period exactly for HIGH, overcrowded exactly for VERY_HIGH, none exactly for LOW |
| CrowdAnalytics.ProximityFlags | src/models/model_registry.py:191-194 | close_interactions exactly when some pair is close, group_formation exactly when additionally close pairs ≥ people // 2 |
| CrowdAnalytics.RatioAtLeast | src/models/model_registry.py:199-203 | the ratio test `faces/people ≥ p/q` is the cross-multiplied integer test |
| CrowdAnalytics.EngagementOf | src/models/model_registry.py:197-207 | engagement is LOW with no people |
| CrowdAnalytics.EngagementByRatio | src/models/model_registry.py:199-206 | HIGH exactly when the face/person ratio is at least 0.8, MEDIUM exactly when it is in [0.5, 0.8), LOW exactly when it is below 0.5 |
| CrowdAnalytics.EngagementFlags | src/models/model_registry.py:197-207 | high_engagement exactly for HIGH and low_visibility exactly for LOW, both only with people present |
| CrowdAnalytics.AtEdgeIsCentreTest | src/models/model_registry.py:212-220 | the integer edge test is the source's test on the real box centre against 0.2 and 0.8 of each side |
| CrowdAnalytics.Occupancy | src/models/model_registry.py:233-240 | 0.0 with no people, never above 1.0, and non-negative for ordered boxes |
| CrowdAnalytics.RiskTenths | src/models/model_registry.py:241-248 | the risk score is at most 0.7; above 0.6 exactly when all three risk conditions hold, in (0.3, 0.6] exactly when two hold, at most 0.3 when at most one holds |
| CrowdAnalytics.RiskOf | src/models/model_registry.py:250-255 | HIGH exactly for a score above 0.6, MEDIUM exactly for a score in (0.3, 0.6], LOW otherwise |
| CrowdAnalytics.CrowdFlags | src/models/model_registry.py:155-254 | the flag list starts with the density flag |
| CrowdAnalytics.CrowdFlagsRaised | src/models/model_registry.py:155-254 | each density, proximity, engagement, flow and attention flag is raised exactly under its condition |
| CrowdAnalytics.DensityFlagsRaised | src/models/model_registry.py:158-176 | no_customers, moderate_traffic, busy_period and overcrowded each raised exactly for its tier |
| CrowdAnalytics.ProximityAndEngagementRaised | src/models/model_registry.py:179-207 | close_interactions, group_formation, high_engagement and low_visibility each raised exactly under their condition |
| CrowdAnalytics.FlowAndAttentionRaised | src/models/model_registry.py:225-254 | high_traffic_flow exactly for TRANSITIONAL, customer_browsing exactly for STATIONARY, attention_required exactly for HIGH risk |
| CrowdAnalytics.RiskTable | src/models/model_registry.py:243-278 | risk is HIGH exactly when all three risk conditions hold, MEDIUM exactly when two hold, LOW when at most one does; attention_required exactly on HIGH; attention needed exactly when risk is not LOW |
| CrowdAnalytics.FlowTable | src/models/model_registry.py:210-230 | each person is edge or centre, never both, so the two counts add up to the people; TRANSITIONAL exactly when edge > centre; exactly one flow flag |
| CrowdAnalytics.ProximityTable | src/models/model_registry.py:179-194 | fewer than two people give no close pair; the two proximity flags are raised exactly under their conditions |
| CrowdAnalytics.DensityAndEngagementTable | src/models/model_registry.py:157-207 | the tier follows the count and the flags start with the tier's flag; congestion is 0.0, 0.2, 0.5, 0.8 or 1.0 for 0, 1-2, 3-5, 6-10 or more people; no_customers, moderate_traffic, busy_period and overcrowded are each raised exactly for their count band; engagement flags only with people present |
| CrowdAnalytics.DensityStep | src/models/model_registry.py:158-176 | the density branch gives the tier, its congestion and its flag |
| CrowdAnalytics.ProximityStep | src/models/model_registry.py:179-194 | the proximity block counts the close pairs only with two or more people and raises the proximity flags |
| CrowdAnalytics.EngagementStep | src/models/model_registry.py:197-207 | the engagement block gives the engagement level and its flag |
| CrowdAnalytics.FlowStep | src/models/model_registry.py:210-230 | the pass over the people counts edge and centre people and decides the flow |
| CrowdAnalytics.RiskStep | src/models/model_registry.py:243-256 | the risk score and level, with attention_required on HIGH |
| CrowdAnalytics.AnalyzeCrowdBehavior | src/models/model_registry.py:128-279 | `analyze_crowd_behavior` returns exactly the specification `CrowdSpec`, whose properties are the tables above |
| CrowdAnalytics.PredictPerItem | src/models/model_registry.py:61-123 | with no decoding exception: one entry per item, in input order; an error entry for an item with no key or no image; for an item whose image loads, the report of that very image (its detections, their analysis, its size); a report's counts equal its list lengths, its averages are 0.0 for empty lists, its alert level follows the counts |
| CrowdAnalytics.PredictAbortsOnRaise | src/models/model_registry.py:125-126 | an item whose decoding raises replaces the whole output with one "Crowd analysis failed: " error |
| CrowdAnalytics.PredictItem | src/models/model_registry.py:63-121 | one item: raises exactly when its decoding raises; otherwise the entry for it |
| CrowdAnalytics.Predict | src/models/model_registry.py:60-126 | the per-item loop returns exactly `PredictSpec` |
| Violence.CrowdPoints | mlflow_setup/mlflow_model_registry.py:113-127 | 0 for nobody, 0.1 for 1-3 people, 0.2 for 4-6, 0.3 for 7 or more |
| Violence.CrowdFlags | mlflow_setup/mlflow_model_registry.py:113-127 | no_people_detected exactly for 0, medium_crowd exactly for 4-6, large_crowd exactly for 7 or more |
| Violence.ProximityPoints | mlflow_setup/mlflow_model_registry.py:145-147 | `min(0.3, 0.1·pairs)`: exactly 0.1 per pair up to three pairs, and 0.3 from three pairs on |
| Violence.LargePeopleIsMeanArea | mlflow_setup/mlflow_model_registry.py:158-167 | the integer test is the mean box area over the image area being above 0.3 |
| Violence.ThreatMonotone | mlflow_setup/mlflow_model_registry.py:184-190 | a higher score never lowers the threat level |
| Violence.ThreatOf | mlflow_setup/mlflow_model_registry.py:185-190 | LOW exactly for a score below 0.3, MEDIUM exactly for a score in [0.3, 0.6), HIGH exactly from 0.6 on |
| Violence.ScoreBounds | mlflow_setup/mlflow_model_registry.py:181-190 | the raw score is at most 1.05, the reported score is the raw score capped at 1.0, and the threat is read from the capped score |
| Violence.RawMaximumReached | mlflow_setup/mlflow_model_registry.py:181-182 | seven people filling the frame with no faces reach the raw 1.05, capped to 1.0 |
| Violence.ViolenceFlagsRaised | mlflow_setup/mlflow_model_registry.py:107-179 | each of the seven flags is raised exactly under its condition |
| Violence.CrowdSizeFlagsRaised | mlflow_setup/mlflow_model_registry.py:113-127 | the three crowd-size flags are raised exactly under their conditions |
| Violence.ComponentFlagsRaised | mlflow_setup/mlflow_model_registry.py:129-179 | close_proximity, low_face_visibility, large_person_size and edge_positioning each raised exactly under their condition |
| Violence.ViolenceTable | mlflow_setup/mlflow_model_registry.py:129-179 | close proximity needs a close pair; low face visibility exactly when people are present and faces are fewer than half; large size exactly on the mean-area test; edge positioning exactly when more than half touch the margin, never with nobody |
| Violence.CrowdStep | mlflow_setup/mlflow_model_registry.py:113-127 | the crowd branch gives its points and flag |
| Violence.ProximityStep | mlflow_setup/mlflow_model_registry.py:129-147 | counts the close pairs only with two or more people, adds the capped points and the flag when there are any |
| Violence.CountMarginPeople | mlflow_setup/mlflow_model_registry.py:169-175 | the loop counts exactly the people whose box touches the outer tenth |
| Violence.LaterSteps | mlflow_setup/mlflow_model_registry.py:149-179 | the face, size and margin blocks give their points and flags in order |
| Violence.AnalyzeViolenceIndicators | mlflow_setup/mlflow_model_registry.py:102-196 | `analyze_violence_indicators` returns exactly the specification `ViolenceSpec`, whose properties are the lemmas above |
| Violence.PredictViolence | mlflow_setup/mlflow_model_registry.py:35-100 | a dict with no key gives the invalid-format error, an image that does not load gives "Could not load image", a decoding exception gives "Prediction failed: " and its text; a report's counts equal its list lengths, its score is at most 1.0, its threat follows the score, averages are 0.0 for empty lists; for an image that loads, the report carries exactly the person and face detections of both detectors on it, the score, threat and flags of the violence analysis of those detections, the image's dimensions text and the two mean confidences |
| Monitor.InitialStatsConsistent | app.py:49-56 | the initial statistics agree with their (empty) detection lists |
| Monitor.DetectedStats | app.py:247-261 | counts are the detection list lengths, density, alert level and activity text are computed from them, and the timestamp is the clock reading |
| Monitor.StoppedStats | app.py:191-200 | counts 0, EMPTY, NORMAL, empty lists, timestamp kept |
| Monitor.InitEventsShape | app.py:85-126 | a loading attempt publishes one progress report per step reached, step i at 20·i percent with its message, then one status |
| Monitor.InitEventsSteps | app.py:87-126 | the reports of a loading attempt are the steps reached, in order, then the outcome |
| Monitor.InstanceEventsShape | app.py:93-126 | from step 2 on: the reports of steps 2 onwards, then the outcome |
| Monitor.FaceEventsShape | app.py:103-126 | from step 4 on: the reports of steps 4 onwards, then the outcome |
| Monitor.ProgressIs | app.py:60-69 | the progress report of step i of 5 carries 20·i percent |
| Monitor.InitEventsOutcome | app.py:109-126 | the closing status is "ready" exactly when loading succeeds, which is exactly when the bar reaches 100 |
| Monitor.SpacedSnoc | app.py:266-270 | appending an update a second after the last one keeps the updates spaced |
| Monitor.SpacedAfter | app.py:266-270 | every update comes at least a second after the loop's start |
| Monitor.SpacedApart | app.py:266-270 | any two published updates are at least a second apart |
| Monitor.StartCamera | app.py:147-149 | starting the camera succeeds exactly when `CaptureOutcome` says it does |
| Monitor.TestAttempt | app.py:154-160 | after a run of empty reads, one `get_frame` call gives a frame exactly when one of the next four reads does |
| Monitor.TestCamera | app.py:153-164 | the check succeeds exactly when one of the forty reads of its ten `get_frame` calls yields a frame |
| Monitor.CrowdMonitoringSystem.constructor | app.py:33-56 | nothing loaded, not monitoring, initial statistics, nothing published |
| Monitor.CrowdMonitoringSystem.UpdateProgress | app.py:60-69 | publishes the step, the total, the floored percentage and the message |
| Monitor.CrowdMonitoringSystem.LoadFailed | app.py:121-129 | publishes the error status with the reason and clears both loading flags |
| Monitor.CrowdMonitoringSystem.InitializeModels | app.py:71-129 | true with nothing changed when loaded; false with nothing changed while loading; otherwise one attempt, after which it is not initializing, it is loaded exactly when the result is true, and the events and detectors follow the failing step |
| Monitor.CrowdMonitoringSystem.LoadModels | app.py:81-129 | one loading attempt: the reports of the steps reached and the outcome are published; loaded exactly on success |
| Monitor.CrowdMonitoringSystem.LoadInstances | app.py:93-129 | steps 2 and 3: a new frame source on the camera, then the person detector |
| Monitor.CrowdMonitoringSystem.LoadFaces | app.py:103-129 | steps 4 and 5: the face detector with threshold 0.5, then the ready status |
| Monitor.CrowdMonitoringSystem.StartMonitoring | app.py:131-173 | refused with nothing changed while monitoring or initializing; a failed load is reported; then `CameraStarted`; monitoring exactly on success, and statistics unchanged; afterwards not initializing, and models loaded exactly when they were before or the load succeeds; already-loaded models keep the processor and both detectors; a load attempt leaves the processor and detectors as far as loading got (fresh processor from step 2, person detector from step 3, face detector only on success) |
| Monitor.CrowdMonitoringSystem.LoadForStart | app.py:141-144 | the "loading" status then one loading attempt: loaded exactly when no step fails, not initializing afterwards, and the processor and detectors as far as loading got |
| Monitor.CrowdMonitoringSystem.StartWithModels | app.py:146-173 | camera access failure, camera test failure (camera stopped) or start, exactly as `CameraStarted` says |
| Monitor.CrowdMonitoringSystem.StopMonitoring | app.py:175-204 | nothing changes when not monitoring; otherwise monitoring off, the processor's state is the stopped state of its old one, the statistics reset and published once, and the loaded models and the initialising flag are kept |
| Monitor.CrowdMonitoringSystem.StopActive | app.py:181-201 | the monitoring branch of stopping: monitoring off, the processor's state is the stopped state of its old one, the statistics reset and published once |
| Monitor.CrowdMonitoringSystem.LoopStep | app.py:213-272 | the frame is the one the camera feed yields from the old read position within the retry budget; the read position advances past that frame, or by 1 + 3 reads when none comes; the processor's current frame becomes the frame read, or is kept when none comes; a missing frame only counts a failure; a frame resets failures and is counted; on every tenth frame the statistics are recomputed from the detections, and published, with the last-emit time advanced, exactly when a second has passed |
| Monitor.CrowdMonitoringSystem.CountFrame | app.py:228-270 | a frame read resets the failures and is counted; every tenth frame goes through detection, with the statistics recomputed and published exactly when a second has passed |
| Monitor.CrowdMonitoringSystem.DetectAndPublish | app.py:233-270 | the statistics from both detectors on the frame, published exactly when a second has passed |
| Monitor.CrowdMonitoringSystem.ProcessVideoLoop | app.py:206-280 | the loop only appends detection updates with consistent statistics, each at least a second after the previous one and the first a second after the start |

## Left out

- Threads, the initialization lock, the stop event, `join` and the frame
  lock. Calls are modelled one after another.
- Sleeps and the wall clock. The loop takes clock readings in whole
  milliseconds as a parameter; the statistics' ISO timestamp is that reading.
- Flask routes, socket handlers and `cleanup`. Whatever `socketio.emit`
  sends is appended to the `events` log.
- Foreign inference and I/O are opaque functions: YOLO, MediaPipe,
  `cvtColor`, `imread`, base64 with `imdecode`, and `np.array`. The
  detectors' dummy-image self-tests, drawing, MLflow registration and
  `load_context`, the image enhancer and the configuration file are not part
  of this model.
- `round(…, 3)` and float artefacts at the thresholds. Scores and rates are
  exact (tenths, twentieths, reals). The confidence average is the exact
  mean of reals.
- Direct (non-dict) inputs to the violence `predict` are either Python's
  `None` or an image. Other objects, such as a list (which fails at
  `image.shape` and gives "Prediction failed: …") or a DataFrame (which has a
  `shape` and is analysed as an image), are not modelled.
- Zero-sized images. Width and height are positive by type, so the division
  by zero that `predict` would catch does not arise.
- Exceptions other than the modelled ones.
  - Modelled: decoding exceptions in both `predict`s, model errors inside
    both detectors, and failures of the detection modules or detector
    constructors during loading.
  - Not modelled: a raising camera read in `get_frame` or `start_capture`,
    and errors inside the processing loop. The model's camera never raises.
- `predict`'s timestamp field, `get_frame_info`, and the FPS and buffer-size
  settings, which change nothing the model observes.
- Before the first detection the statistics have no detection lists. The
  model holds them as empty lists, with no timestamp.
- Monitor.CrowdMonitoringSystem.ProcessVideoLoop: runs over a finite
  sequence of clock readings and ends when they run out or monitoring is
  off. Its contract states the publishing invariant; the per-pass behaviour
  is stated by `LoopStep`.
- Geometry.AreaSum: states only that the sum is non-negative for ordered
  boxes. Its value is the plain sum of the areas.
- CrowdAnalytics.EngagementOf: its own contract states only the empty case.
  The thresholds are stated by `EngagementByRatio`.
- Geometry.MeanConfidence: its own contract states only the empty case.
  `MeanConfidenceAbove` bounds the mean from below.
- Aggregator.ProgressPercent: the floor of `step·100/total` in exact
  arithmetic. The float expression in the code can come out one lower for
  some operands (29/100 gives 28). Every call uses a total of 5, where the two
  agree (`ProgressOfFiveSteps`).

=== FILE: aggregator.dfy ===
/** The monitoring application's tiering rules: crowd density from the person
    count, alert level from a weighted person/face count, the one-line activity
    description, and the loading progress percentage. */
module Aggregator {
  import opened Text

  datatype Density = Empty | Low | Medium | High
  datatype AlertLevel = Normal | Caution | Alert

  function DensityRank(d: Density): nat {
    match d
    case Empty => 0
    case Low => 1
    case Medium => 2
    case High => 3
  }

  function AlertRank(a: AlertLevel): nat {
    match a
    case Normal => 0
    case Caution => 1
    case Alert => 2
  }

  /** Density tier of a person count: 0, 1-2, 3-5, 6 and more. */
  function CrowdDensity(personCount: nat): (d: Density)
    ensures d == Empty <==> personCount == 0
    ensures d == Low <==> 1 <= personCount <= 2
    ensures d == Medium <==> 3 <= personCount <= 5
    ensures d == High <==> 6 <= personCount
  {
    if personCount == 0 then Empty
    else if personCount <= 2 then Low
    else if personCount <= 5 then Medium
    else High
  }

  /** More people never lower the density tier. */
  lemma CrowdDensityMonotone(m: nat, n: nat)
    requires m <= n
    ensures DensityRank(CrowdDensity(m)) <= DensityRank(CrowdDensity(n))
  {
  }

  lemma CrowdDensityExamples()
    ensures CrowdDensity(0) == Empty && CrowdDensity(1) == Low && CrowdDensity(2) == Low
    ensures CrowdDensity(3) == Medium && CrowdDensity(5) == Medium
    ensures CrowdDensity(6) == High && CrowdDensity(11) == High
  {
  }

  /** Alert tier of the weight `p + 0.3 * f`: NORMAL up to 3, CAUTION up to
      6, ALERT above. The body compares the weight in tenths. */
  function CalculateAlertLevel(personCount: nat, faceCount: nat): (a: AlertLevel)
    ensures var total := personCount as real + 0.3 * faceCount as real;
      && (a == Normal <==> total <= 3.0)
      && (a == Caution <==> 3.0 < total <= 6.0)
      && (a == Alert <==> 6.0 < total)
  {
    assert (10 * personCount + 3 * faceCount) as real == 10.0 * (personCount as real + 0.3 * faceCount as real);
    var total := 10 * personCount + 3 * faceCount;
    if total == 0 then Normal
    else if total <= 30 then Normal
    else if total <= 60 then Caution
    else Alert
  }

  /** More people or more faces never lower the alert tier. */
  lemma AlertLevelMonotone(p: nat, f: nat, p': nat, f': nat)
    requires p <= p' && f <= f'
    ensures AlertRank(CalculateAlertLevel(p, f)) <= AlertRank(CalculateAlertLevel(p', f'))
  {
  }

  lemma AlertLevelExamples()
    ensures CalculateAlertLevel(3, 0) == Normal
    ensures CalculateAlertLevel(5, 5) == Alert
    ensures CalculateAlertLevel(0, 10) == Normal
    ensures CalculateAlertLevel(4, 0) == Caution
  {
  }

  // The phrasings, assembled from short pieces so that their characters are
  // visible to the verifier.
  const NoDetectionsText := "No detections" + " - area" + " appears empty"
  const FacesOnlySuffix := " face(s) detected" + " - partial person" + " visibility"
  const PersonsOnlySuffix := " person(s) detected" + " - faces not" + " clearly visible"
  const BothMiddle := " person(s), "
  const BothSuffix := " face(s) detected" + " - good visibility"

  /** One of four fixed phrasings, chosen by which counts are zero, with the
      non-zero counts written in decimal. */
  function ActivityDescription(personCount: nat, faceCount: nat): (s: string)
    ensures personCount == 0 && faceCount == 0 ==> s == NoDetectionsText
    ensures personCount == 0 && faceCount > 0 ==> s == NatToString(faceCount) + FacesOnlySuffix
    ensures personCount > 0 && faceCount == 0 ==> s == NatToString(personCount) + PersonsOnlySuffix
    ensures personCount > 0 && faceCount > 0
      ==> s == NatToString(personCount) + BothMiddle + NatToString(faceCount) + BothSuffix
  {
    if personCount == 0 && faceCount == 0 then NoDetectionsText
    else if personCount == 0 && faceCount > 0 then NatToString(faceCount) + FacesOnlySuffix
    else if personCount > 0 && faceCount == 0 then NatToString(personCount) + PersonsOnlySuffix
    else NatToString(personCount) + BothMiddle + NatToString(faceCount) + BothSuffix
  }

  /** The decimal number a non-empty description starts with. */
  function Lead(personCount: nat, faceCount: nat): string {
    if personCount > 0 then NatToString(personCount) else NatToString(faceCount)
  }

  /** What follows that number. */
  function Tail(personCount: nat, faceCount: nat): string {
    if personCount == 0 then FacesOnlySuffix
    else if faceCount == 0 then PersonsOnlySuffix
    else BothMiddle + NatToString(faceCount) + BothSuffix
  }

  lemma LeadTailSplit(p: nat, f: nat)
    requires p > 0 || f > 0
    ensures ActivityDescription(p, f) == Lead(p, f) + Tail(p, f)
    ensures AllDigits(Lead(p, f))
  {
    if p > 0 && f > 0 {
      assert NatToString(p) + BothMiddle + NatToString(f) + BothSuffix
          == NatToString(p) + (BothMiddle + NatToString(f) + BothSuffix);
    }
  }

  /** The tail's first two characters tell " face(s)" from " person(s)", and the
      eleventh tells " person(s) detected" from " person(s), ". */
  lemma TailMarkers(p: nat, f: nat)
    ensures |Tail(p, f)| > 10
    ensures Tail(p, f)[0] == ' '
    ensures Tail(p, f)[1] == 'f' <==> p == 0
    ensures p > 0 ==> (Tail(p, f)[10] == ',' <==> f > 0)
  {
    if p > 0 && f > 0 {
      BothTailMarkers(f);
    } else if p > 0 {
      PersonsOnlyMarkers();
    } else {
      FacesOnlyMarkers();
    }
  }

  lemma BothTailMarkers(f: nat)
    ensures var t := BothMiddle + NatToString(f) + BothSuffix;
      |t| > 10 && t[0] == ' ' && t[1] == 'p' && t[10] == ','
  {
    var t := BothMiddle + NatToString(f) + BothSuffix;
    assert t == BothMiddle + (NatToString(f) + BothSuffix);
    assert t[0] == BothMiddle[0] && t[1] == BothMiddle[1] && t[10] == BothMiddle[10];
  }

  lemma PersonsOnlyMarkers()
    ensures |PersonsOnlySuffix| > 10
    ensures PersonsOnlySuffix[0] == ' ' && PersonsOnlySuffix[1] == 'p' && PersonsOnlySuffix[10] == ' '
  {
  }

  lemma FacesOnlyMarkers()
    ensures |FacesOnlySuffix| > 10 && FacesOnlySuffix[0] == ' ' && FacesOnlySuffix[1] == 'f'
  {
  }

  /** The description determines both counts: different count pairs never
      produce the same text, so the four phrasings never collide and the
      embedded numbers are the counts themselves. */
  lemma ActivityDescriptionInjective(p: nat, f: nat, p': nat, f': nat)
    requires ActivityDescription(p, f) == ActivityDescription(p', f')
    ensures p == p' && f == f'
  {
    DescriptionStart(p, f);
    DescriptionStart(p', f');
    if p > 0 || f > 0 {
      LeadTailSplit(p, f);
      LeadTailSplit(p', f');
      TailMarkers(p, f);
      TailMarkers(p', f');
      DigitPrefixUnique(Lead(p, f), Tail(p, f), Lead(p', f'), Tail(p', f'));
      TailInjective(p, f, p', f');
      NatToStringInjective(if p > 0 then p else f, if p' > 0 then p' else f');
    }
  }

  /** Only the empty phrasing starts with a non-digit. */
  lemma DescriptionStart(p: nat, f: nat)
    ensures |ActivityDescription(p, f)| > 0
    ensures IsDigit(ActivityDescription(p, f)[0]) <==> p > 0 || f > 0
  {
    if p > 0 || f > 0 {
      LeadTailSplit(p, f);
    } else {
      assert !IsDigit(NoDetectionsText[0]);
    }
  }

  /** Equal tails have the same zero pattern, and equal face counts when
      they name persons. */
  lemma TailInjective(p: nat, f: nat, p': nat, f': nat)
    requires Tail(p, f) == Tail(p', f')
    ensures (p == 0) == (p' == 0)
    ensures p > 0 ==> f == f'
  {
    TailMarkers(p, f);
    TailMarkers(p', f');
    if p > 0 && f > 0 {
      var b, b' := NatToString(f), NatToString(f');
      assert b + BothSuffix == Tail(p, f)[|BothMiddle|..];
      assert b' + BothSuffix == Tail(p', f')[|BothMiddle|..];
      DigitPrefixUnique(b, BothSuffix, b', BothSuffix);
      NatToStringInjective(f, f');
    }
  }

  /** Loading progress: `int(step / total * 100)`, the floor of the exact ratio. */
  function ProgressPercent(step: nat, total: nat): (pct: nat)
    requires total > 0
    ensures pct * total <= step * 100 < (pct + 1) * total
    ensures step <= total ==> pct <= 100
  {
    (step * 100) / total
  }

  lemma ProgressOfFiveSteps()
    ensures ProgressPercent(1, 5) == 20 && ProgressPercent(2, 5) == 40
    ensures ProgressPercent(3, 5) == 60 && ProgressPercent(4, 5) == 80
    ensures ProgressPercent(5, 5) == 100
  {
  }
}

=== FILE: common.dfy ===
/** Values shared by the detectors, the frame source and the analytics:
    frames, bounding boxes, detections, and a few generic sequence helpers
    (counting, order-preserving selection, first match). */
module Common {

  datatype Option<T> = None | Some(value: T)

  /** An image dimension in pixels. Zero-sized images are not modelled. */
  type Dim = x: int | x > 0 witness 1

  /** A decoded image or camera frame; `id` stands for the pixel content,
      which only the external detectors look at. */
  datatype Frame = Frame(width: Dim, height: Dim, id: nat)

  /** Integer pixel box `[x1, y1, x2, y2]`. */
  datatype BBox = BBox(x1: int, y1: int, x2: int, y2: int)

  /** One detected region: box, confidence and fixed class tag. */
  datatype Detection = Detection(bbox: BBox, confidence: real, cls: string)

  /** Python's `int(x)` on a float: truncation toward zero. */
  function Trunc(r: real): int {
    if r >= 0.0 then r.Floor else -((-r).Floor)
  }

  /** Truncation moves toward zero by less than one. */
  lemma TruncBounds(r: real)
    ensures r >= 0.0 ==> 0 <= Trunc(r) && Trunc(r) as real <= r < Trunc(r) as real + 1.0
    ensures r < 0.0 ==> Trunc(r) <= 0 && Trunc(r) as real - 1.0 < r <= Trunc(r) as real
  {
  }

  /** Number of elements of `s` satisfying `p`. */
  function Count<T>(s: seq<T>, p: T -> bool): (n: nat)
    ensures n <= |s|
    decreases |s|
  {
    if s == [] then 0
    else Count(s[..|s| - 1], p) + (if p(s[|s| - 1]) then 1 else 0)
  }

  lemma CountPrefix<T>(s: seq<T>, p: T -> bool, i: nat)
    requires i < |s|
    ensures Count(s[..i + 1], p) == Count(s[..i], p) + (if p(s[i]) then 1 else 0)
  {
    assert s[..i + 1][..i] == s[..i];
  }

  /** Every element is counted by exactly one of `p` and its complement `q`. */
  lemma {:induction false} CountSplit<T>(s: seq<T>, p: T -> bool, q: T -> bool)
    requires forall x :: q(x) == !p(x)
    ensures Count(s, p) + Count(s, q) == |s|
    decreases |s|
  {
    if s != [] {
      CountSplit(s[..|s| - 1], p, q);
    }
  }

  /** The elements of `s` satisfying `keep`, in their original order. */
  function Selected<T>(s: seq<T>, keep: T -> bool): (r: seq<T>)
    ensures |r| <= |s|
    ensures forall k :: 0 <= k < |r| ==> keep(r[k])
    decreases |s|
  {
    if s == [] then []
    else Selected(s[..|s| - 1], keep) + (if keep(s[|s| - 1]) then [s[|s| - 1]] else [])
  }

  lemma SelectedPrefix<T>(s: seq<T>, keep: T -> bool, i: nat)
    requires i < |s|
    ensures Selected(s[..i + 1], keep)
         == Selected(s[..i], keep) + (if keep(s[i]) then [s[i]] else [])
  {
    assert s[..i + 1][..i] == s[..i];
  }

  /** Positions of the selected elements of `s`. */
  function SelectedIndices<T>(s: seq<T>, keep: T -> bool): seq<nat>
    decreases |s|
  {
    if s == [] then []
    else SelectedIndices(s[..|s| - 1], keep) + (if keep(s[|s| - 1]) then [|s| - 1] else [])
  }

  /** `Selected` is exactly the subsequence of `s` at the strictly increasing
      positions where `keep` holds: order is preserved and nothing kept is lost. */
  lemma {:induction false} SelectedIsOrderedSubsequence<T>(s: seq<T>, keep: T -> bool)
    ensures var ix := SelectedIndices(s, keep);
      && |ix| == |Selected(s, keep)|
      && (forall k :: 0 <= k < |ix| ==> ix[k] < |s| && Selected(s, keep)[k] == s[ix[k]])
      && (forall k, l :: 0 <= k < l < |ix| ==> ix[k] < ix[l])
      && (forall i :: 0 <= i < |s| ==> (keep(s[i]) <==> i in ix))
    decreases |s|
  {
    if s != [] {
      var t := s[..|s| - 1];
      SelectedIsOrderedSubsequence(t, keep);
      var ix := SelectedIndices(t, keep);
      forall i | 0 <= i < |t|
        ensures s[i] == t[i]
      {
      }
    }
  }

  /** Index of the first element satisfying `p`, or `|s|` when there is none. */
  function FirstIndex<T>(s: seq<T>, p: T -> bool): (k: nat)
    ensures k <= |s|
    ensures forall j :: 0 <= j < k ==> !p(s[j])
    ensures k < |s| ==> p(s[k])
    decreases |s|
  {
    if s == [] then 0
    else if p(s[0]) then 0
    else 1 + FirstIndex(s[1..], p)
  }
}

=== FILE: crowd_analytics.dfy ===
/** The crowd-monitoring model wrapper (`CrowdMonitoringWrapper`): the crowd
    analysis of one image's detections, and the per-item prediction loop.

    Decimal constants are exact: congestion and risk are counted in tenths,
    ratios are compared by cross-multiplication, distances squared. */
module CrowdAnalytics {
  import opened Common
  import opened Geometry
  import opened Inputs
  import Aggregator
  import FaceDetection
  import PersonDetection

  datatype CrowdTier = TierEmpty | TierLow | TierMedium | TierHigh | TierVeryHigh
  datatype Engagement = EngagementLow | EngagementMedium | EngagementHigh
  datatype Flow = Transitional | Stationary
  datatype Risk = RiskLow | RiskMedium | RiskHigh

  datatype CrowdFlag =
    | NoCustomers | ModerateTraffic | BusyPeriod | Overcrowded
    | CloseInteractions | GroupFormation
    | HighEngagement | LowVisibility
    | HighTrafficFlow | CustomerBrowsing
    | AttentionRequired

  /** The text each behaviour flag is reported as. */
  function FlagName(f: CrowdFlag): string {
    match f
    case NoCustomers => "no_customers"
    case ModerateTraffic => "moderate_traffic"
    case BusyPeriod => "busy_period"
    case Overcrowded => "overcrowded"
    case CloseInteractions => "close_interactions"
    case GroupFormation => "group_formation"
    case HighEngagement => "high_engagement"
    case LowVisibility => "low_visibility"
    case HighTrafficFlow => "high_traffic_flow"
    case CustomerBrowsing => "customer_browsing"
    case AttentionRequired => "attention_required"
  }

  /** The analysis of one image. `congestionTenths` is the congestion score
      times ten; `occupancy` is the unrounded occupancy rate. */
  datatype CrowdAnalysis = CrowdAnalysis(
    density: CrowdTier,
    congestionTenths: nat,
    alertLevel: Aggregator.AlertLevel,
    flags: seq<CrowdFlag>,
    engagement: Engagement,
    flow: Flow,
    occupancy: real,
    risk: Risk,
    attentionNeeded: bool)

  /** Density tier of a person count: 0, 1-2, 3-5, 6-10, more than 10. */
  function Tier(n: nat): (t: CrowdTier)
    ensures t == TierEmpty <==> n == 0
    ensures t == TierLow <==> 1 <= n <= 2
    ensures t == TierMedium <==> 3 <= n <= 5
    ensures t == TierHigh <==> 6 <= n <= 10
    ensures t == TierVeryHigh <==> n > 10
  {
    if n == 0 then TierEmpty
    else if n <= 2 then TierLow
    else if n <= 5 then TierMedium
    else if n <= 10 then TierHigh
    else TierVeryHigh
  }

  /** Congestion score of a tier, in tenths: 0.0, 0.2, 0.5, 0.8, 1.0. Only the
      top tier is above 0.8. */
  function Congestion(t: CrowdTier): (c: nat)
    ensures c <= 10
    ensures c > 8 <==> t == TierVeryHigh
    ensures c == 0 <==> t == TierEmpty
    ensures c == 2 <==> t == TierLow
    ensures c == 5 <==> t == TierMedium
    ensures c == 8 <==> t == TierHigh
  {
    match t
    case TierEmpty => 0
    case TierLow => 2
    case TierMedium => 5
    case TierHigh => 8
    case TierVeryHigh => 10
  }

  /** The flag each tier contributes; the low tier contributes none. */
  function TierFlags(t: CrowdTier): (fs: seq<CrowdFlag>)
    ensures |fs| <= 1 && (fs == [] <==> t == TierLow)
    ensures NoCustomers in fs <==> t == TierEmpty
    ensures ModerateTraffic in fs <==> t == TierMedium
    ensures BusyPeriod in fs <==> t == TierHigh
    ensures Overcrowded in fs <==> t == TierVeryHigh
    ensures forall x :: x in fs ==> x.NoCustomers? || x.ModerateTraffic? || x.BusyPeriod? || x.Overcrowded?
  {
    match t
    case TierEmpty => [NoCustomers]
    case TierLow => []
    case TierMedium => [ModerateTraffic]
    case TierHigh => [BusyPeriod]
    case TierVeryHigh => [Overcrowded]
  }

  /** Close interactions, and a group when they are at least half the people
      (`//`, rounding down). */
  function ProximityFlags(close: nat, n: nat): (fs: seq<CrowdFlag>)
    ensures CloseInteractions in fs <==> close > 0
    ensures GroupFormation in fs <==> close > 0 && close >= n / 2
    ensures forall x :: x in fs ==> x.CloseInteractions? || x.GroupFormation?
  {
    if close == 0 then []
    else [CloseInteractions] + (if close >= n / 2 then [GroupFormation] else [])
  }

  /** `a / n` in exact arithmetic. */
  function Ratio(a: nat, n: nat): real
    requires n > 0
  {
    a as real / n as real
  }

  /** A ratio against a fraction `p / q`, by cross-multiplication. */
  lemma RatioAtLeast(a: nat, n: nat, p: nat, q: nat)
    requires n > 0 && q > 0
    ensures Ratio(a, n) >= p as real / q as real <==> q * a >= p * n
  {
    var r, s := Ratio(a, n), p as real / q as real;
    assert r * n as real == a as real;
    assert s * q as real == p as real;
    assert (q * a) as real == r * (n * q) as real;
    assert (p * n) as real == s * (n * q) as real;
  }

  /** Engagement by face/person ratio: at least 0.8 is high, at least 0.5 is
      medium, otherwise (and with no people) low. */
  function EngagementOf(n: nat, faces: nat): (e: Engagement)
    ensures n == 0 ==> e == EngagementLow
  {
    if n == 0 then EngagementLow
    else if 5 * faces >= 4 * n then EngagementHigh
    else if 2 * faces >= n then EngagementMedium
    else EngagementLow
  }

  /** The engagement tiers are the source's ratio thresholds 0.8 and 0.5. */
  lemma EngagementByRatio(n: nat, faces: nat)
    requires n > 0
    ensures EngagementOf(n, faces) == EngagementHigh <==> Ratio(faces, n) >= 0.8
    ensures EngagementOf(n, faces) == EngagementMedium <==> 0.5 <= Ratio(faces, n) < 0.8
    ensures EngagementOf(n, faces) == EngagementLow <==> Ratio(faces, n) < 0.5
  {
    RatioAtLeast(faces, n, 4, 5);
    RatioAtLeast(faces, n, 1, 2);
  }

  function EngagementFlags(n: nat, e: Engagement): (fs: seq<CrowdFlag>)
    ensures HighEngagement in fs <==> n > 0 && e == EngagementHigh
    ensures LowVisibility in fs <==> n > 0 && e == EngagementLow
    ensures forall x :: x in fs ==> x.HighEngagement? || x.LowVisibility?
  {
    if n == 0 then []
    else match e
      case EngagementHigh => [HighEngagement]
      case EngagementMedium => []
      case EngagementLow => [LowVisibility]
  }

  /** A person whose box centre lies in the outer fifth of the frame on any
      side (entering or leaving). */
  predicate AtEdge(b: BBox, w: Dim, h: Dim) {
    || 5 * (b.x1 + b.x2) < 2 * w || 5 * (b.x1 + b.x2) > 8 * w
    || 5 * (b.y1 + b.y2) < 2 * h || 5 * (b.y1 + b.y2) > 8 * h
  }

  /** The integer edge test is the source's test on the real centre. */
  lemma AtEdgeIsCentreTest(b: BBox, w: Dim, h: Dim)
    ensures var c := Center(b);
      AtEdge(b, w, h) <==>
        c.0 < w as real * 0.2 || c.0 > w as real * 0.8 || c.1 < h as real * 0.2 || c.1 > h as real * 0.8
  {
  }

  function EdgeTest(w: Dim, h: Dim): BBox -> bool {
    (b: BBox) => AtEdge(b, w, h)
  }

  function CentreTest(w: Dim, h: Dim): BBox -> bool {
    (b: BBox) => !AtEdge(b, w, h)
  }

  function FlowOf(edge: nat, centre: nat): Flow {
    if edge > centre then Transitional else Stationary
  }

  function FlowFlag(f: Flow): CrowdFlag {
    if f == Transitional then HighTrafficFlow else CustomerBrowsing
  }

  function MinReal(a: real, b: real): real {
    if a <= b then a else b
  }

  /** Total box area over the frame area, capped at 1.0; 0.0 with no people. */
  function Occupancy(boxes: seq<BBox>, w: Dim, h: Dim): (o: real)
    ensures boxes == [] ==> o == 0.0
    ensures o <= 1.0
    ensures (forall k :: 0 <= k < |boxes| ==> Ordered(boxes[k])) ==> o >= 0.0
  {
    if boxes == [] then 0.0 else MinReal(1.0, AreaSum(boxes) as real / (w * h) as real)
  }

  /** Risk score in tenths: 0.3 when overcrowded, 0.2 when close pairs
      outnumber half the people, 0.2 when engagement is low with more than
      three people. */
  function RiskTenths(t: CrowdTier, close: nat, n: nat, e: Engagement): (s: nat)
    ensures var held := (if t == TierVeryHigh then 1 else 0) + (if 2 * close > n then 1 else 0)
                        + (if e == EngagementLow && n > 3 then 1 else 0);
      && s <= 7
      && (s > 6 <==> held == 3)
      && (3 < s <= 6 <==> held == 2)
      && (s <= 3 <==> held <= 1)
  {
    (if Congestion(t) > 8 then 3 else 0)
    + (if 2 * close > n then 2 else 0)
    + (if e == EngagementLow && n > 3 then 2 else 0)
  }

  /** Risk level of a score in tenths: above 0.6 high, above 0.3 medium. */
  function RiskOf(score: nat): (r: Risk)
    ensures r == RiskHigh <==> score as real / 10.0 > 0.6
    ensures r == RiskMedium <==> 0.3 < score as real / 10.0 <= 0.6
    ensures r == RiskLow <==> score as real / 10.0 <= 0.3
  {
    if score > 6 then RiskHigh else if score > 3 then RiskMedium else RiskLow
  }

  /** The behaviour flags, in the order they are raised: density, proximity,
      engagement, flow, attention. */
  function CrowdFlags(t: CrowdTier, close: nat, n: nat, e: Engagement, flow: Flow, risk: Risk): (fs: seq<CrowdFlag>)
    ensures |TierFlags(t)| <= |fs| && fs[..|TierFlags(t)|] == TierFlags(t)
  {
    var a, b, c := TierFlags(t), ProximityFlags(close, n), EngagementFlags(n, e);
    var d := [FlowFlag(flow)] + (if risk == RiskHigh then [AttentionRequired] else []);
    assert a + b + c + d == a + (b + c + d);
    a + b + c + d
  }

  /** Each flag is raised exactly under its condition, and the flow flag is
      always one of the two. */
  lemma CrowdFlagsRaised(t: CrowdTier, close: nat, n: nat, e: Engagement, flow: Flow, risk: Risk)
    ensures var fs := CrowdFlags(t, close, n, e, flow, risk);
      && (NoCustomers in fs <==> t == TierEmpty)
      && (ModerateTraffic in fs <==> t == TierMedium)
      && (BusyPeriod in fs <==> t == TierHigh)
      && (Overcrowded in fs <==> t == TierVeryHigh)
      && (CloseInteractions in fs <==> close > 0)
      && (GroupFormation in fs <==> close > 0 && close >= n / 2)
      && (HighEngagement in fs <==> n > 0 && e == EngagementHigh)
      && (LowVisibility in fs <==> n > 0 && e == EngagementLow)
      && (HighTrafficFlow in fs <==> flow == Transitional)
      && (CustomerBrowsing in fs <==> flow == Stationary)
      && (AttentionRequired in fs <==> risk == RiskHigh)
  {
    DensityFlagsRaised(t, close, n, e, flow, risk);
    ProximityAndEngagementRaised(t, close, n, e, flow, risk);
    FlowAndAttentionRaised(t, close, n, e, flow, risk);
  }

  lemma DensityFlagsRaised(t: CrowdTier, close: nat, n: nat, e: Engagement, flow: Flow, risk: Risk)
    ensures var fs := CrowdFlags(t, close, n, e, flow, risk);
      && (NoCustomers in fs <==> t == TierEmpty)
      && (ModerateTraffic in fs <==> t == TierMedium)
      && (BusyPeriod in fs <==> t == TierHigh)
      && (Overcrowded in fs <==> t == TierVeryHigh)
  {
    var fs := CrowdFlags(t, close, n, e, flow, risk);
    var a, b, c := TierFlags(t), ProximityFlags(close, n), EngagementFlags(n, e);
    var d := [FlowFlag(flow)] + (if risk == RiskHigh then [AttentionRequired] else []);
    assert fs == a + b + c + d;
    assert NoCustomers !in b + c + d && ModerateTraffic !in b + c + d;
    assert BusyPeriod !in b + c + d && Overcrowded !in b + c + d;
  }

  lemma ProximityAndEngagementRaised(t: CrowdTier, close: nat, n: nat, e: Engagement, flow: Flow, risk: Risk)
    ensures var fs := CrowdFlags(t, close, n, e, flow, risk);
      && (CloseInteractions in fs <==> close > 0)
      && (GroupFormation in fs <==> close > 0 && close >= n / 2)
      && (HighEngagement in fs <==> n > 0 && e == EngagementHigh)
      && (LowVisibility in fs <==> n > 0 && e == EngagementLow)
  {
    var fs := CrowdFlags(t, close, n, e, flow, risk);
    var a, b, c := TierFlags(t), ProximityFlags(close, n), EngagementFlags(n, e);
    var d := [FlowFlag(flow)] + (if risk == RiskHigh then [AttentionRequired] else []);
    assert fs == a + b + c + d;
    assert CloseInteractions in fs <==> close > 0 by {
      assert CloseInteractions !in a && CloseInteractions !in c && CloseInteractions !in d;
    }
    assert GroupFormation in fs <==> close > 0 && close >= n / 2 by {
      assert GroupFormation !in a && GroupFormation !in c && GroupFormation !in d;
    }
    assert HighEngagement in fs <==> n > 0 && e == EngagementHigh by {
      assert HighEngagement !in a && HighEngagement !in b && HighEngagement !in d;
    }
    assert LowVisibility in fs <==> n > 0 && e == EngagementLow by {
      assert LowVisibility !in a && LowVisibility !in b && LowVisibility !in d;
    }
  }

  lemma FlowAndAttentionRaised(t: CrowdTier, close: nat, n: nat, e: Engagement, flow: Flow, risk: Risk)
    ensures var fs := CrowdFlags(t, close, n, e, flow, risk);
      && (HighTrafficFlow in fs <==> flow == Transitional)
      && (CustomerBrowsing in fs <==> flow == Stationary)
      && (AttentionRequired in fs <==> risk == RiskHigh)
  {
    var fs := CrowdFlags(t, close, n, e, flow, risk);
    var a, b, c := TierFlags(t), ProximityFlags(close, n), EngagementFlags(n, e);
    var d := [FlowFlag(flow)] + (if risk == RiskHigh then [AttentionRequired] else []);
    assert fs == a + b + c + d;
    assert HighTrafficFlow in fs <==> flow == Transitional by {
      assert HighTrafficFlow !in a && HighTrafficFlow !in b && HighTrafficFlow !in c;
    }
    assert CustomerBrowsing in fs <==> flow == Stationary by {
      assert CustomerBrowsing !in a && CustomerBrowsing !in b && CustomerBrowsing !in c;
    }
    assert AttentionRequired in fs <==> risk == RiskHigh by {
      assert AttentionRequired !in a && AttentionRequired !in b && AttentionRequired !in c;
    }
  }

  /** What `analyze_crowd_behavior` returns for the given detections in a
      `w` by `h` image. */
  function CrowdSpec(persons: seq<Detection>, faces: seq<Detection>, w: Dim, h: Dim): CrowdAnalysis {
    var n := |persons|;
    var boxes := Boxes(persons);
    var t := Tier(n);
    var close := if n >= 2 then ClosePairs(boxes, w, h) else 0;
    var e := EngagementOf(n, |faces|);
    var edge := Count(boxes, EdgeTest(w, h));
    var centre := Count(boxes, CentreTest(w, h));
    var flow := FlowOf(edge, centre);
    var risk := RiskOf(RiskTenths(t, close, n, e));
    CrowdAnalysis(
      t,
      Congestion(t),
      Aggregator.CalculateAlertLevel(n, |faces|),
      CrowdFlags(t, close, n, e, flow, risk),
      e,
      flow,
      Occupancy(boxes, w, h),
      risk,
      risk != RiskLow)
  }

  /** The three risk conditions. */
  predicate Overcrowding(n: nat) { n > 10 }
  predicate ManyClosePairs(close: nat, n: nat) { 2 * close > n }
  predicate LowEngagementCrowd(n: nat, faces: nat) { n > 3 && EngagementOf(n, faces) == EngagementLow }

  /** Risk is high exactly when all three risk conditions hold, medium
      exactly when two of them hold, and low when at most one does; attention
      is flagged exactly on high risk and needed exactly when risk is not low. */
  lemma RiskTable(persons: seq<Detection>, faces: seq<Detection>, w: Dim, h: Dim)
    ensures var r := CrowdSpec(persons, faces, w, h);
      var n := |persons|;
      var close := if n >= 2 then ClosePairs(Boxes(persons), w, h) else 0;
      var c1, c2, c3 := Overcrowding(n), ManyClosePairs(close, n), LowEngagementCrowd(n, |faces|);
      var held := (if c1 then 1 else 0) + (if c2 then 1 else 0) + (if c3 then 1 else 0);
      && (r.risk == RiskHigh <==> held == 3)
      && (r.risk == RiskMedium <==> held == 2)
      && (r.risk == RiskLow <==> held <= 1)
      && (AttentionRequired in r.flags <==> r.risk == RiskHigh)
      && (r.attentionNeeded <==> r.risk != RiskLow)
  {
    FlagsOfSpec(persons, faces, w, h);
    var r := CrowdSpec(persons, faces, w, h);
    CrowdFlagsRaised(r.density, if |persons| >= 2 then ClosePairs(Boxes(persons), w, h) else 0,
                     |persons|, r.engagement, r.flow, r.risk);
  }

  /** Every person is an edge person or a centre person, never both; the flow
      is transitional exactly when edge people outnumber centre people, and
      exactly one of the two flow flags is raised. */
  lemma FlowTable(persons: seq<Detection>, faces: seq<Detection>, w: Dim, h: Dim)
    ensures var r := CrowdSpec(persons, faces, w, h);
      var edge := Count(Boxes(persons), EdgeTest(w, h));
      var centre := Count(Boxes(persons), CentreTest(w, h));
      && edge + centre == |persons|
      && (r.flow == Transitional <==> edge > centre)
      && (HighTrafficFlow in r.flags <==> r.flow == Transitional)
      && (CustomerBrowsing in r.flags <==> r.flow == Stationary)
  {
    CountSplit(Boxes(persons), EdgeTest(w, h), CentreTest(w, h));
    FlagsOfSpec(persons, faces, w, h);
    var r := CrowdSpec(persons, faces, w, h);
    CrowdFlagsRaised(r.density, if |persons| >= 2 then ClosePairs(Boxes(persons), w, h) else 0,
                     |persons|, r.engagement, r.flow, r.risk);
  }

  /** Close interactions are flagged exactly when some pair is close (which
      needs at least two people), and a group additionally when the close
      pairs are at least half the people, rounded down. */
  lemma ProximityTable(persons: seq<Detection>, faces: seq<Detection>, w: Dim, h: Dim)
    ensures var r := CrowdSpec(persons, faces, w, h);
      var n := |persons|;
      var close := ClosePairs(Boxes(persons), w, h);
      && (n < 2 ==> close == 0)
      && (CloseInteractions in r.flags <==> close > 0)
      && (GroupFormation in r.flags <==> close > 0 && close >= n / 2)
  {
    var boxes := Boxes(persons);
    if |boxes| < 2 {
      ClosePairsBound(boxes, w, h);
    }
    FlagsOfSpec(persons, faces, w, h);
    var r := CrowdSpec(persons, faces, w, h);
    CrowdFlagsRaised(r.density, if |persons| >= 2 then ClosePairs(Boxes(persons), w, h) else 0,
                     |persons|, r.engagement, r.flow, r.risk);
  }

  /** The density tier, its congestion and its flag follow the person count;
      the flags start with the tier's flag, and engagement flags appear only
      when someone is present. */
  lemma DensityAndEngagementTable(persons: seq<Detection>, faces: seq<Detection>, w: Dim, h: Dim)
    ensures var r := CrowdSpec(persons, faces, w, h);
      var n := |persons|;
      && r.density == Tier(n)
      && r.flags[..|TierFlags(r.density)|] == TierFlags(r.density)
      && (n == 0 ==> r.congestionTenths == 0 && r.flags[0] == NoCustomers)
      && (1 <= n <= 2 ==> r.congestionTenths == 2)
      && (3 <= n <= 5 ==> r.congestionTenths == 5 && r.flags[0] == ModerateTraffic)
      && (6 <= n <= 10 ==> r.congestionTenths == 8 && r.flags[0] == BusyPeriod)
      && (n > 10 ==> r.congestionTenths == 10 && r.flags[0] == Overcrowded)
      && (NoCustomers in r.flags <==> n == 0)
      && (ModerateTraffic in r.flags <==> 3 <= n <= 5)
      && (BusyPeriod in r.flags <==> 6 <= n <= 10)
      && (Overcrowded in r.flags <==> n > 10)
      && (HighEngagement in r.flags <==> n > 0 && r.engagement == EngagementHigh)
      && (LowVisibility in r.flags <==> n > 0 && r.engagement == EngagementLow)
  {
    FlagsOfSpec(persons, faces, w, h);
    var r := CrowdSpec(persons, faces, w, h);
    CrowdFlagsRaised(r.density, if |persons| >= 2 then ClosePairs(Boxes(persons), w, h) else 0,
                     |persons|, r.engagement, r.flow, r.risk);
  }

  /** The flags of the analysis are `CrowdFlags` of its own fields. */
  lemma FlagsOfSpec(persons: seq<Detection>, faces: seq<Detection>, w: Dim, h: Dim)
    ensures var r := CrowdSpec(persons, faces, w, h);
      var n := |persons|;
      var close := if n >= 2 then ClosePairs(Boxes(persons), w, h) else 0;
      r.flags == CrowdFlags(r.density, close, n, r.engagement, r.flow, r.risk)
  {
  }

  /** Step 1: the density table. */
  method DensityStep(n: nat) returns (t: CrowdTier, congestion: nat, flags: seq<CrowdFlag>)
    ensures t == Tier(n) && congestion == Congestion(t) && flags == TierFlags(t)
  {
    if n == 0 {
      t, congestion, flags := TierEmpty, 0, [NoCustomers];
    } else if n <= 2 {
      t, congestion, flags := TierLow, 2, [];
    } else if n <= 5 {
      t, congestion, flags := TierMedium, 5, [ModerateTraffic];
    } else if n <= 10 {
      t, congestion, flags := TierHigh, 8, [BusyPeriod];
    } else {
      t, congestion, flags := TierVeryHigh, 10, [Overcrowded];
    }
  }

  /** Step 2: pairwise proximity, only with at least two people. */
  method ProximityStep(boxes: seq<BBox>, w: Dim, h: Dim) returns (close: nat, flags: seq<CrowdFlag>)
    ensures close == (if |boxes| >= 2 then ClosePairs(boxes, w, h) else 0)
    ensures flags == ProximityFlags(close, |boxes|)
  {
    close, flags := 0, [];
    var n := |boxes|;
    if n >= 2 {
      close := CountClosePairs(boxes, w, h);
      if close > 0 {
        flags := flags + [CloseInteractions];
        if close >= n / 2 {
          flags := flags + [GroupFormation];
        }
      }
    }
  }

  /** Step 3: engagement from the face/person ratio. */
  method EngagementStep(n: nat, faces: nat) returns (e: Engagement, flags: seq<CrowdFlag>)
    ensures e == EngagementOf(n, faces) && flags == EngagementFlags(n, e)
  {
    e, flags := EngagementLow, [];
    if n > 0 {
      if 5 * faces >= 4 * n {
        e, flags := EngagementHigh, [HighEngagement];
      } else if 2 * faces >= n {
        e := EngagementMedium;
      } else {
        e, flags := EngagementLow, [LowVisibility];
      }
    }
  }

  /** Step 4: one pass classifying each person as edge or centre. */
  method FlowStep(boxes: seq<BBox>, w: Dim, h: Dim) returns (edge: nat, centre: nat, flow: Flow)
    ensures edge == Count(boxes, EdgeTest(w, h)) && centre == Count(boxes, CentreTest(w, h))
    ensures flow == FlowOf(edge, centre)
  {
    ghost var atEdge, inCentre := EdgeTest(w, h), CentreTest(w, h);
    edge, centre := 0, 0;
    var i := 0;
    while i < |boxes|
      invariant 0 <= i <= |boxes|
      invariant edge == Count(boxes[..i], atEdge) && centre == Count(boxes[..i], inCentre)
    {
      CountPrefix(boxes, atEdge, i);
      CountPrefix(boxes, inCentre, i);
      if AtEdge(boxes[i], w, h) {
        edge := edge + 1;
      } else {
        centre := centre + 1;
      }
      i := i + 1;
    }
    assert boxes[..i] == boxes;
    flow := if edge > centre then Transitional else Stationary;
  }

  /** Step 6: the risk score and its level. */
  method RiskStep(t: CrowdTier, close: nat, n: nat, e: Engagement) returns (risk: Risk, flags: seq<CrowdFlag>)
    ensures risk == RiskOf(RiskTenths(t, close, n, e))
    ensures flags == if risk == RiskHigh then [AttentionRequired] else []
  {
    var score := 0;
    if Congestion(t) > 8 {
      score := score + 3;
    }
    if 2 * close > n {
      score := score + 2;
    }
    if e == EngagementLow && n > 3 {
      score := score + 2;
    }
    risk, flags := RiskLow, [];
    if score > 6 {
      risk, flags := RiskHigh, [AttentionRequired];
    } else if score > 3 {
      risk := RiskMedium;
    }
  }

  /** The crowd analysis: density table, pairwise proximity, engagement, a
      pass over the people for the flow pattern, occupancy, risk and alert,
      with the behaviour flags collected in that order. */
  method AnalyzeCrowdBehavior(persons: seq<Detection>, faces: seq<Detection>, w: Dim, h: Dim)
    returns (r: CrowdAnalysis)
    ensures r == CrowdSpec(persons, faces, w, h)
  {
    var n := |persons|;
    var boxes := Boxes(persons);
    var density, congestion, densityFlags := DensityStep(n);
    var close, proximityFlags := ProximityStep(boxes, w, h);
    var engagement, engagementFlags := EngagementStep(n, |faces|);
    var edge, centre, flow := FlowStep(boxes, w, h);
    var flowFlag := if flow == Transitional then HighTrafficFlow else CustomerBrowsing;
    var occupancy := if n > 0 then MinReal(1.0, AreaSum(boxes) as real / (w * h) as real) else 0.0;
    var risk, riskFlags := RiskStep(density, close, n, engagement);
    var alert := Aggregator.CalculateAlertLevel(n, |faces|);
    var flags := densityFlags + proximityFlags + engagementFlags + ([flowFlag] + riskFlags);
    assert flags == CrowdFlags(density, close, n, engagement, flow, risk);
    r := CrowdAnalysis(density, congestion, alert, flags, engagement, flow, occupancy, risk, risk != RiskLow);
  }

  /** The two detectors the wrapper loads. */
  datatype CrowdModels = CrowdModels(persons: PersonDetection.YoloDetector, faces: FaceDetection.FaceDetector)

  /** One entry of the prediction output. */
  datatype CrowdResult =
    | CrowdError(message: string)
    | CrowdReport(
        personCount: nat,
        faceCount: nat,
        analysis: CrowdAnalysis,
        personDetections: seq<Detection>,
        faceDetections: seq<Detection>,
        dimensions: string,
        modelVersion: string,
        avgPersonConfidence: real,
        avgFaceConfidence: real)

  const CrowdFailurePrefix := "Crowd analysis failed: "

  /** The report for one loaded image. */
  function ReportFor(m: CrowdModels, image: Frame): CrowdResult {
    var persons := PersonDetection.DetectedPersons(m.persons, Some(image));
    var faces := FaceDetection.DetectedFaces(m.faces, Some(image));
    CrowdReport(|persons|, |faces|, CrowdSpec(persons, faces, image.width, image.height),
                persons, faces, DimensionsText(image.width, image.height), ModelVersion,
                MeanConfidence(persons), MeanConfidence(faces))
  }

  /** The entry for one item whose decoding did not raise. */
  function ItemResult(m: CrowdModels, dec: Decoders, item: InputItem): CrowdResult {
    match SelectSource(item)
    case None => CrowdError(InvalidFormatText)
    case Some(src) =>
      match LoadImage(dec, src)
      case Loaded(image) => ReportFor(m, image)
      case _ => CrowdError(LoadFailedText)
  }

  /** Decoding the item's image raises. */
  function RaisesOn(dec: Decoders): InputItem -> bool {
    (item: InputItem) => SelectSource(item).Some? && LoadImage(dec, SelectSource(item).value).Raised?
  }

  /** What `predict` returns: one entry per item, in order, unless decoding
      some item raises, in which case the whole output is a single error
      carrying the first such exception's text. */
  function PredictSpec(m: CrowdModels, dec: Decoders, items: seq<InputItem>): seq<CrowdResult> {
    var k := FirstIndex(items, RaisesOn(dec));
    if k < |items| then
      [CrowdError(CrowdFailurePrefix + LoadImage(dec, SelectSource(items[k]).value).message)]
    else
      seq(|items|, i requires 0 <= i < |items| => ItemResult(m, dec, items[i]))
  }

  /** With no raising item: one entry per item in input order, an error entry
      for an item with none of the three keys or with no image, and for a
      loaded image a report whose counts are the lengths of its detection
      lists, whose averages are 0.0 for empty lists, and whose analysis is
      that of its detections and image size. */
  lemma PredictPerItem(m: CrowdModels, dec: Decoders, items: seq<InputItem>)
    requires forall i :: 0 <= i < |items| ==> !RaisesOn(dec)(items[i])
    ensures var out := PredictSpec(m, dec, items);
      && |out| == |items|
      && (forall i :: 0 <= i < |items| && SelectSource(items[i]).None? ==> out[i] == CrowdError(InvalidFormatText))
      && (forall i :: (0 <= i < |items| && SelectSource(items[i]).Some?
                       && LoadImage(dec, SelectSource(items[i]).value).NotLoaded?)
                     ==> out[i] == CrowdError(LoadFailedText))
      && (forall i :: (0 <= i < |items| && SelectSource(items[i]).Some?
                       && LoadImage(dec, SelectSource(items[i]).value).Loaded?)
                     ==> out[i] == ReportFor(m, LoadImage(dec, SelectSource(items[i]).value).image))
      && (forall i :: 0 <= i < |items| && out[i].CrowdReport? ==>
            && out[i].personCount == |out[i].personDetections|
            && out[i].faceCount == |out[i].faceDetections|
            && (out[i].personDetections == [] ==> out[i].avgPersonConfidence == 0.0)
            && (out[i].faceDetections == [] ==> out[i].avgFaceConfidence == 0.0)
            && out[i].analysis.alertLevel == Aggregator.CalculateAlertLevel(out[i].personCount, out[i].faceCount))
  {
    var k := FirstIndex(items, RaisesOn(dec));
    assert k == |items|;
  }

  /** An item that raises replaces the whole output with one error entry. */
  lemma PredictAbortsOnRaise(m: CrowdModels, dec: Decoders, items: seq<InputItem>, j: nat)
    requires j < |items| && RaisesOn(dec)(items[j])
    ensures var out := PredictSpec(m, dec, items);
      |out| == 1 && out[0].CrowdError?
      && out[0].message[..|CrowdFailurePrefix|] == CrowdFailurePrefix
  {
    var k := FirstIndex(items, RaisesOn(dec));
    assert k <= j;
    var msg := LoadImage(dec, SelectSource(items[k]).value).message;
    assert (CrowdFailurePrefix + msg)[..|CrowdFailurePrefix|] == CrowdFailurePrefix;
  }

  /** The body of `predict`'s loop for one item: the entry it appends, or the
      exception that ends the call. */
  method PredictItem(m: CrowdModels, dec: Decoders, item: InputItem) returns (r: CrowdResult, raised: bool)
    ensures raised <==> RaisesOn(dec)(item)
    ensures raised ==> r == CrowdError(CrowdFailurePrefix + LoadImage(dec, SelectSource(item).value).message)
    ensures !raised ==> r == ItemResult(m, dec, item)
  {
    raised := false;
    var src := SelectSource(item);
    if src.None? {
      r := CrowdError(InvalidFormatText);
    } else {
      var load := LoadImage(dec, src.value);
      if load.Raised? {
        r, raised := CrowdError(CrowdFailurePrefix + load.message), true;
      } else if load.NotLoaded? {
        r := CrowdError(LoadFailedText);
      } else {
        var image := load.image;
        var persons := PersonDetection.DetectPersons(m.persons, Some(image));
        var faces := FaceDetection.DetectFaces(m.faces, Some(image));
        var analysis := AnalyzeCrowdBehavior(persons, faces, image.width, image.height);
        r := CrowdReport(|persons|, |faces|, analysis, persons, faces,
                         DimensionsText(image.width, image.height), ModelVersion,
                         MeanConfidence(persons), MeanConfidence(faces));
      }
    }
  }

  /** The per-item loop of `predict`. */
  method Predict(m: CrowdModels, dec: Decoders, items: seq<InputItem>) returns (results: seq<CrowdResult>)
    ensures results == PredictSpec(m, dec, items)
  {
    results := [];
    var i := 0;
    while i < |items|
      invariant 0 <= i <= |items| && |results| == i
      invariant forall j :: 0 <= j < i ==> !RaisesOn(dec)(items[j])
      invariant forall j :: 0 <= j < i ==> results[j] == ItemResult(m, dec, items[j])
    {
      var r, raised := PredictItem(m, dec, items[i]);
      if raised {
        assert FirstIndex(items, RaisesOn(dec)) == i;
        return [r];
      }
      results := results + [r];
      i := i + 1;
    }
    assert FirstIndex(items, RaisesOn(dec)) == |items|;
  }
}

=== FILE: face_detector.dfy ===
/** Post-processing of the face model's output (`FaceDetector.detect_faces`):
    keep the results above the confidence threshold, convert their relative
    boxes to pixels, clamp them to the frame, and tag them as faces. The model
    itself is an opaque function of the frame. */
module FaceDetection {
  import opened Common

  /** One raw face result: its score and its box relative to the frame size. */
  datatype RawFace = RawFace(score: real, xmin: real, ymin: real, width: real, height: real)

  /** Running the face model on a frame: it raised, or it gave a list of
      results (an absent list is the empty one). */
  datatype FaceRun = FaceError | FaceResults(detections: seq<RawFace>)

  /** A constructed detector: its confidence threshold and the model. */
  datatype FaceDetector = FaceDetector(threshold: real, model: Frame -> FaceRun)

  const FaceClass := "face"

  function Max(a: int, b: int): int { if a >= b then a else b }
  function Min(a: int, b: int): int { if a <= b then a else b }

  /** The pixel box of a raw result: offsets truncated to int, the corner
      raised to 0, the far edges (measured from the raised corner) capped at
      the frame size. */
  function ClampedBox(raw: RawFace, w: Dim, h: Dim): (b: BBox)
    ensures b.x1 >= 0 && b.y1 >= 0 && b.x2 <= w && b.y2 <= h
    ensures b.x1 == Max(0, Trunc(raw.xmin * w as real))
    ensures b.y1 == Max(0, Trunc(raw.ymin * h as real))
    ensures var right := b.x1 + Trunc(raw.width * w as real);
      b.x2 <= right && (b.x2 == right || b.x2 == w)
    ensures var bottom := b.y1 + Trunc(raw.height * h as real);
      b.y2 <= bottom && (b.y2 == bottom || b.y2 == h)
  {
    var x := Max(0, Trunc(raw.xmin * w as real));
    var y := Max(0, Trunc(raw.ymin * h as real));
    BBox(x, y, Min(x + Trunc(raw.width * w as real), w), Min(y + Trunc(raw.height * h as real), h))
  }

  function ToFace(raw: RawFace, w: Dim, h: Dim): Detection {
    Detection(ClampedBox(raw, w, h), raw.score, FaceClass)
  }

  /** The strict confidence filter. */
  function Confident(threshold: real): RawFace -> bool {
    (raw: RawFace) => raw.score > threshold
  }

  /** Converts each kept raw result, in order. */
  function FacesFrom(kept: seq<RawFace>, w: Dim, h: Dim): (r: seq<Detection>)
    ensures |r| == |kept|
    ensures forall k :: 0 <= k < |r| ==> r[k] == ToFace(kept[k], w, h)
  {
    seq(|kept|, k requires 0 <= k < |kept| => ToFace(kept[k], w, h))
  }

  /** What `detect_faces` returns: nothing for a missing frame or a model
      error, otherwise the confident results converted in their original order.
      Every returned face is tagged "face", is strictly above the threshold and
      lies inside the frame on its top, left, right and bottom bounds. */
  function DetectedFaces(d: FaceDetector, frame: Option<Frame>): (r: seq<Detection>)
    ensures frame.None? ==> r == []
    ensures frame.Some? && d.model(frame.value).FaceError? ==> r == []
    ensures frame.Some? && d.model(frame.value).FaceResults? ==>
      |r| <= |d.model(frame.value).detections|
    ensures forall k :: 0 <= k < |r| ==>
      && r[k].cls == FaceClass
      && r[k].confidence > d.threshold
      && r[k].bbox.x1 >= 0 && r[k].bbox.y1 >= 0
      && r[k].bbox.x2 <= frame.value.width && r[k].bbox.y2 <= frame.value.height
  {
    match frame
    case None => []
    case Some(f) =>
      match d.model(f)
      case FaceError => []
      case FaceResults(raws) =>
        var kept := Selected(raws, Confident(d.threshold));
        assert forall k :: 0 <= k < |kept| ==> kept[k].score > d.threshold;
        FacesFrom(kept, f.width, f.height)
  }

  /** The returned faces are exactly the raw results above the threshold,
      converted, in their original order: the k-th face comes from the raw
      result at the k-th of a strictly increasing list of positions, and a raw
      result's position is on that list exactly when its score is above the
      threshold. */
  lemma DetectedFacesInOrder(d: FaceDetector, f: Frame)
    requires d.model(f).FaceResults?
    ensures var raws := d.model(f).detections;
      var ix := SelectedIndices(raws, Confident(d.threshold));
      var r := DetectedFaces(d, Some(f));
      && |r| == |ix|
      && (forall k :: 0 <= k < |ix| ==> ix[k] < |raws| && r[k] == ToFace(raws[ix[k]], f.width, f.height))
      && (forall k, l :: 0 <= k < l < |ix| ==> ix[k] < ix[l])
      && (forall i :: 0 <= i < |raws| ==> (raws[i].score > d.threshold <==> i in ix))
  {
    var raws := d.model(f).detections;
    SelectedIsOrderedSubsequence(raws, Confident(d.threshold));
  }

  /** Runs the model on a frame and post-processes its results one by one. */
  method DetectFaces(d: FaceDetector, frame: Option<Frame>) returns (dets: seq<Detection>)
    ensures dets == DetectedFaces(d, frame)
  {
    dets := [];
    if frame.None? {
      return;
    }
    var run := d.model(frame.value);
    if run.FaceError? {
      return;
    }
    var raws := run.detections;
    var w, h := frame.value.width, frame.value.height;
    ghost var keep := Confident(d.threshold);
    var i := 0;
    while i < |raws|
      invariant 0 <= i <= |raws|
      invariant |dets| == |Selected(raws[..i], keep)|
      invariant forall k :: 0 <= k < |dets| ==> dets[k] == ToFace(Selected(raws[..i], keep)[k], w, h)
    {
      var raw := raws[i];
      if raw.score > d.threshold {
        dets := dets + [ToFace(raw, w, h)];
      }
      assert keep(raw) == (raw.score > d.threshold);
      SelectedPrefix(raws, keep, i);
      i := i + 1;
    }
    assert raws[..i] == raws;
    assert dets == FacesFrom(Selected(raws, keep), w, h);
  }

  /** The corner is clamped only from below, so a box is not guaranteed to be
      well ordered: a face reported past the right edge yields x1 > x2. */
  lemma ClampDoesNotOrderCorners()
    ensures var b := ClampedBox(RawFace(0.9, 1.5, 0.0, 0.25, 0.5), 100, 100);
      b.x1 == 150 && b.x2 == 100
  {
    var b := ClampedBox(RawFace(0.9, 1.5, 0.0, 0.25, 0.5), 100, 100);
    assert Trunc(1.5 * 100 as real) == 150;
    assert Trunc(0.25 * 100 as real) == 25;
  }
}

=== FILE: geometry.dfy ===
/** Box geometry shared by both scoring functions: box centres, the "very
    close" test between two people, the count of close pairs, box areas and
    mean confidences. Distances are compared squared, on doubled centres, so
    everything stays in integers. */
module Geometry {
  import opened Common

  /** `get_bbox_center`: the exact midpoint of the box. */
  function Center(b: BBox): (c: (real, real))
    ensures (b.x1 <= b.x2 ==> b.x1 as real <= c.0 <= b.x2 as real)
    ensures (b.y1 <= b.y2 ==> b.y1 as real <= c.1 <= b.y2 as real)
  {
    ((b.x1 + b.x2) as real / 2.0, (b.y1 + b.y2) as real / 2.0)
  }

  /** The smaller image side. */
  function MinDim(w: Dim, h: Dim): (m: Dim)
    ensures m <= w && m <= h && (m == w || m == h)
  {
    if w <= h then w else h
  }

  /** Two boxes are very close when their centres are less than 0.15 of the
      smaller image side apart. Here: twice the centre offsets, squared,
      against `(0.3 * side)^2`, scaled by 100. */
  predicate Close(a: BBox, b: BBox, w: Dim, h: Dim) {
    var dx := (a.x1 + a.x2) - (b.x1 + b.x2);
    var dy := (a.y1 + a.y2) - (b.y1 + b.y2);
    var m := MinDim(w, h);
    100 * (dx * dx + dy * dy) < 9 * (m * m)
  }

  /** The integer test is the source's test on real centres: the squared
      centre distance is below the squared threshold `(0.15 * side)^2`, which,
      both sides being non-negative, is `distance / side < 0.15`. */
  lemma CloseIsNormalizedDistance(a: BBox, b: BBox, w: Dim, h: Dim)
    ensures var ca, cb := Center(a), Center(b);
      var d2 := (ca.0 - cb.0) * (ca.0 - cb.0) + (ca.1 - cb.1) * (ca.1 - cb.1);
      var m := MinDim(w, h) as real;
      Close(a, b, w, h) <==> d2 < (0.15 * m) * (0.15 * m)
  {
    var ca, cb := Center(a), Center(b);
    var dx := (a.x1 + a.x2) - (b.x1 + b.x2);
    var dy := (a.y1 + a.y2) - (b.y1 + b.y2);
    var m := MinDim(w, h);
    assert ca.0 - cb.0 == dx as real / 2.0;
    assert ca.1 - cb.1 == dy as real / 2.0;
    var d2 := (ca.0 - cb.0) * (ca.0 - cb.0) + (ca.1 - cb.1) * (ca.1 - cb.1);
    assert d2 == (dx * dx + dy * dy) as real / 4.0;
    assert (0.15 * m as real) * (0.15 * m as real) == (9 * (m * m)) as real / 400.0;
  }

  /** The closeness test against one fixed person. */
  function CloseTo(a: BBox, w: Dim, h: Dim): BBox -> bool {
    (b: BBox) => Close(a, b, w, h)
  }

  /** Number of unordered pairs `i < j` of boxes that are very close. */
  function ClosePairs(boxes: seq<BBox>, w: Dim, h: Dim): nat
    decreases |boxes|
  {
    if boxes == [] then 0
    else Count(boxes[1..], CloseTo(boxes[0], w, h)) + ClosePairs(boxes[1..], w, h)
  }

  /** There are at most `n * (n - 1) / 2` close pairs among `n` boxes. */
  lemma {:induction false} ClosePairsBound(boxes: seq<BBox>, w: Dim, h: Dim)
    ensures 2 * ClosePairs(boxes, w, h) <= |boxes| * (|boxes| - 1)
    decreases |boxes|
  {
    if boxes != [] {
      var rest := boxes[1..];
      ClosePairsBound(rest, w, h);
      var c := Count(rest, CloseTo(boxes[0], w, h));
      assert c <= |rest|;
      PairsStep(|rest|);
    }
  }

  lemma PairsStep(k: nat)
    ensures k * (k - 1) + 2 * k == (k + 1) * k
  {
  }

  /** Boxes pairwise far apart have no close pairs. */
  lemma {:induction false} ClosePairsNone(boxes: seq<BBox>, w: Dim, h: Dim)
    requires forall i, j :: 0 <= i < j < |boxes| ==> !Close(boxes[i], boxes[j], w, h)
    ensures ClosePairs(boxes, w, h) == 0
    decreases |boxes|
  {
    if boxes != [] {
      var rest := boxes[1..];
      CountNone(rest, CloseTo(boxes[0], w, h));
      ClosePairsNone(rest, w, h);
    }
  }

  lemma {:induction false} CountNone<T>(s: seq<T>, p: T -> bool)
    requires forall k :: 0 <= k < |s| ==> !p(s[k])
    ensures Count(s, p) == 0
    decreases |s|
  {
    if s != [] {
      CountNone(s[..|s| - 1], p);
    }
  }

  /** The nested pair loop: for each person, each later person. */
  method CountClosePairs(boxes: seq<BBox>, w: Dim, h: Dim) returns (close: nat)
    ensures close == ClosePairs(boxes, w, h)
  {
    close := 0;
    var i := 0;
    while i < |boxes|
      invariant 0 <= i <= |boxes|
      invariant close + ClosePairs(boxes[i..], w, h) == ClosePairs(boxes, w, h)
    {
      ghost var rest := boxes[i + 1..];
      ghost var near := CloseTo(boxes[i], w, h);
      var j := i + 1;
      var c := 0;
      while j < |boxes|
        invariant i + 1 <= j <= |boxes|
        invariant c == Count(rest[..j - (i + 1)], near)
      {
        CountPrefix(rest, near, j - (i + 1));
        assert rest[j - (i + 1)] == boxes[j];
        if Close(boxes[i], boxes[j], w, h) {
          c := c + 1;
        }
        j := j + 1;
      }
      assert rest[..j - (i + 1)] == rest;
      assert boxes[i..][1..] == boxes[i + 1..];
      close := close + c;
      i := i + 1;
    }
  }

  function Area(b: BBox): int {
    (b.x2 - b.x1) * (b.y2 - b.y1)
  }

  /** A box with ordered corners. */
  predicate Ordered(b: BBox) {
    b.x1 <= b.x2 && b.y1 <= b.y2
  }

  /** Sum of the box areas. */
  function AreaSum(boxes: seq<BBox>): (total: int)
    ensures (forall k :: 0 <= k < |boxes| ==> Ordered(boxes[k])) ==> total >= 0
    decreases |boxes|
  {
    if boxes == [] then 0 else AreaSum(boxes[..|boxes| - 1]) + Area(boxes[|boxes| - 1])
  }

  /** The boxes of a detection list, in order. */
  function Boxes(dets: seq<Detection>): (boxes: seq<BBox>)
    ensures |boxes| == |dets| && forall k :: 0 <= k < |dets| ==> boxes[k] == dets[k].bbox
  {
    seq(|dets|, k requires 0 <= k < |dets| => dets[k].bbox)
  }

  function ConfidenceSum(dets: seq<Detection>): real
    decreases |dets|
  {
    if dets == [] then 0.0 else ConfidenceSum(dets[..|dets| - 1]) + dets[|dets| - 1].confidence
  }

  /** The average confidence, or 0.0 for an empty list. */
  function MeanConfidence(dets: seq<Detection>): (m: real)
    ensures dets == [] ==> m == 0.0
  {
    if dets == [] then 0.0 else ConfidenceSum(dets) / |dets| as real
  }

  lemma {:induction false} ConfidenceSumAbove(dets: seq<Detection>, t: real)
    requires forall k :: 0 <= k < |dets| ==> dets[k].confidence > t
    ensures ConfidenceSum(dets) >= |dets| as real * t
    ensures dets != [] ==> ConfidenceSum(dets) > |dets| as real * t
    decreases |dets|
  {
    if dets != [] {
      ConfidenceSumAbove(dets[..|dets| - 1], t);
    }
  }

  /** Detections all above a threshold average above it. */
  lemma MeanConfidenceAbove(dets: seq<Detection>, t: real)
    requires dets != []
    requires forall k :: 0 <= k < |dets| ==> dets[k].confidence > t
    ensures MeanConfidence(dets) > t
  {
    ConfidenceSumAbove(dets, t);
    var n := |dets| as real;
    assert ConfidenceSum(dets) / n > (n * t) / n;
  }
}

=== FILE: inputs.dfy ===
/** Request items accepted by both model wrappers, the choice of image source
    by key, and the outcome of decoding it. Decoding itself (`cv2.imread`,
    base64 with `cv2.imdecode`, `np.array`) is opaque: each decoder is a
    function from its input to an outcome. */
module Inputs {
  import opened Common
  import opened Text

  /** A request item; each of the three recognised keys may be absent. */
  datatype InputItem = InputItem(imagePath: Option<string>, imageData: Option<string>,
                                 imageArray: Option<seq<int>>)

  /** The key an image is taken from, with its value. */
  datatype Source = FromPath(path: string) | FromData(data: string) | FromArray(pixels: seq<int>)

  /** What decoding gave: an image, nothing (`None`), or an exception with its text. */
  datatype Load = Loaded(image: Frame) | NotLoaded | Raised(message: string)

  datatype Decoders = Decoders(readFile: string -> Load, decodeData: string -> Load,
                               fromArray: seq<int> -> Load)

  const InvalidFormatText := "Invalid input format. Provide image_path, image_data, or image_array"
  const LoadFailedText := "Could not load image"
  const ModelVersion := "1.0.0"

  /** Key precedence: `image_path`, then `image_data`, then `image_array`;
      no source when none of the three is present. */
  function SelectSource(item: InputItem): (src: Option<Source>)
    ensures src.None? <==> item.imagePath.None? && item.imageData.None? && item.imageArray.None?
    ensures item.imagePath.Some? ==> src == Some(FromPath(item.imagePath.value))
    ensures item.imagePath.None? && item.imageData.Some? ==> src == Some(FromData(item.imageData.value))
    ensures item.imagePath.None? && item.imageData.None? && item.imageArray.Some?
      ==> src == Some(FromArray(item.imageArray.value))
  {
    if item.imagePath.Some? then Some(FromPath(item.imagePath.value))
    else if item.imageData.Some? then Some(FromData(item.imageData.value))
    else if item.imageArray.Some? then Some(FromArray(item.imageArray.value))
    else None
  }

  /** A lower-precedence key never changes the choice when a higher one is present. */
  lemma SourceIgnoresLaterKeys(item: InputItem, data: Option<string>, pixels: Option<seq<int>>)
    requires item.imagePath.Some?
    ensures SelectSource(item.(imageData := data, imageArray := pixels)) == SelectSource(item)
  {
  }

  /** The decoder each source goes to: the file reader, base64 decoding, or
      the array conversion. */
  function LoadImage(dec: Decoders, src: Source): Load {
    match src
    case FromPath(path) => dec.readFile(path)
    case FromData(data) => dec.decodeData(data)
    case FromArray(pixels) => dec.fromArray(pixels)
  }

  /** The decoder an item's image goes through: the file reader when it has
      `image_path`, else base64 decoding when it has `image_data`, else the
      array conversion. */
  lemma ItemDecoder(dec: Decoders, item: InputItem)
    requires SelectSource(item).Some?
    ensures var load := LoadImage(dec, SelectSource(item).value);
      && (item.imagePath.Some? ==> load == dec.readFile(item.imagePath.value))
      && (item.imagePath.None? && item.imageData.Some? ==> load == dec.decodeData(item.imageData.value))
      && (item.imagePath.None? && item.imageData.None? ==> load == dec.fromArray(item.imageArray.value))
  {
  }

  /** `f"{width}x{height}"`: the width's digits, the letter x, the height's
      digits. */
  function DimensionsText(w: Dim, h: Dim): (s: string)
    ensures var k := |NatToString(w)|;
      && k < |s| && AllDigits(s[..k]) && s[k] == 'x' && AllDigits(s[k + 1..])
      && |s[k + 1..]| > 0
    ensures var k := |NatToString(w)|;
      k < |s| && ParseNat(s[..k]) == w && ParseNat(s[k + 1..]) == h
  {
    var s := NatToString(w) + "x" + NatToString(h);
    assert s[..|NatToString(w)|] == NatToString(w);
    assert s[|NatToString(w)| + 1..] == NatToString(h);
    ParseNatToString(w);
    ParseNatToString(h);
    s
  }

  /** The dimensions text determines width and height. */
  lemma DimensionsTextInjective(w: Dim, h: Dim, w': Dim, h': Dim)
    requires DimensionsText(w, h) == DimensionsText(w', h')
    ensures w == w' && h == h'
  {
    var a, b := NatToString(w), NatToString(h);
    var a', b' := NatToString(w'), NatToString(h');
    assert DimensionsText(w, h) == a + "x" + b == a + ("x" + b);
    assert DimensionsText(w', h') == a' + "x" + b' == a' + ("x" + b');
    DigitPrefixUnique(a, "x" + b, a', "x" + b');
    NatToStringInjective(w, w');
    assert b == ("x" + b)[1..] && b' == ("x" + b')[1..];
    NatToStringInjective(h, h');
  }
}

=== FILE: monitor.dfy ===
/** The monitoring application (`CrowdMonitoringSystem`): lazy model loading
    with progress reports, starting and stopping monitoring with a camera
    check, and the processing loop that runs the detectors on every tenth
    frame and publishes the statistics at most once per second.

    What the application pushes to its web clients is kept as an event log;
    the loop's clock is a sequence of readings in milliseconds; a failure of
    the detection modules or of a detector's constructor is a parameter. */
module Monitor {
  import opened Common
  import opened Aggregator
  import opened Video
  import FaceDetection
  import PersonDetection

  /** The statistics record shown to clients. Before the first detection the
      two detection lists are empty and there is no timestamp. */
  datatype Stats = Stats(personCount: nat, faceCount: nat, density: Density,
                         alertLevel: AlertLevel, lastActivity: string, systemStatus: string,
                         timestamp: Option<int>, personDetections: seq<Detection>,
                         faceDetections: seq<Detection>)

  /** What is pushed to clients. */
  datatype Event =
    | LoadingProgress(step: nat, total: nat, progress: nat, message: string)
    | SystemStatus(status: string, message: string)
    | DetectionUpdate(stats: Stats)

  /** The `{success, message}` answer of start and stop. */
  datatype Response = Response(success: bool, message: string)

  /** How model loading goes: fully, or failing at the module import, at the
      person detector or at the face detector (with the exception's text). */
  datatype LoadFault = NoFault | ModulesMissing | YoloFails(reason: string) | FaceFails(reason: string)

  /** The processing loop's local variables. */
  datatype LoopState = LoopState(frameCount: nat, lastEmit: int, failures: nat)

  const ReadyActivity := "System ready - click Start to begin monitoring"
  const InitialStats := Stats(0, 0, Empty, Normal, ReadyActivity, "Ready", None, [], [])

  const YoloWeights := "yolov8n.pt"
  const FaceThreshold: real := 0.5
  const TotalSteps: nat := 5
  const ModulesMissingText := "Detection modules not available"
  const LoadFailedPrefix := "Model loading failed: "
  const ModelsReadyText := "All AI models loaded - ready to monitor!"
  const LoadingText := "Loading AI models..."

  const AlreadyMonitoringText := "Already monitoring"
  const StillInitializingText := "Still initializing..."
  const InitFailedText := "Model initialization failed"
  const CameraAccessText := "Camera access failed - check camera permissions"
  const CameraTestText := "Camera test failed - no frames received"
  const StartedText := "Monitoring started - AI detection active"
  const NotMonitoringText := "Not monitoring"
  const StoppedText := "Monitoring stopped"

  /** `get_frame` calls made to check the camera before monitoring starts. */
  const CameraTestAttempts: nat := 10
  /** Every this many frames the detectors run. */
  const DetectEvery: nat := 10
  /** Minimum time between two published updates, in milliseconds. */
  const EmitIntervalMs: int := 1000

  /** The statistics agree with the detections they were computed from. */
  predicate Consistent(s: Stats) {
    && s.personCount == |s.personDetections|
    && s.faceCount == |s.faceDetections|
    && s.density == CrowdDensity(s.personCount)
    && s.alertLevel == CalculateAlertLevel(s.personCount, s.faceCount)
  }

  lemma InitialStatsConsistent()
    ensures Consistent(InitialStats)
  {
  }

  /** The statistics after detection on a frame at time `now`. */
  function DetectedStats(persons: seq<Detection>, faces: seq<Detection>, now: int): (t: Stats)
    ensures Consistent(t)
    ensures t.personDetections == persons && t.faceDetections == faces
    ensures t.lastActivity == ActivityDescription(|persons|, |faces|)
    ensures t.timestamp == Some(now)
  {
    var p, f := |persons|, |faces|;
    Stats(p, f, CrowdDensity(p), CalculateAlertLevel(p, f), ActivityDescription(p, f),
          "Monitoring Active", Some(now), persons, faces)
  }

  /** The statistics after stopping: counts and lists cleared, the last
      timestamp kept. */
  function StoppedStats(s: Stats): (t: Stats)
    ensures Consistent(t)
    ensures t.personCount == 0 && t.faceCount == 0
    ensures t.timestamp == s.timestamp
  {
    s.(personCount := 0, faceCount := 0, density := Empty, alertLevel := Normal,
       lastActivity := "Monitoring stopped", systemStatus := "Ready",
       personDetections := [], faceDetections := [])
  }

  function StepMessage(step: nat): string {
    if step == 1 then "Importing detection modules..."
    else if step == 2 then "Initializing camera system..."
    else if step == 3 then "Loading YOLOv8 person detection model..."
    else if step == 4 then "Loading MediaPipe face detection model..."
    else "All AI models loaded successfully!"
  }

  function Progress(step: nat): Event {
    LoadingProgress(step, TotalSteps, ProgressPercent(step, TotalSteps), StepMessage(step))
  }

  /** The step at which loading stops: the failing one, or the last. */
  function LastStep(fault: LoadFault): (k: nat)
    ensures 1 <= k <= TotalSteps
  {
    match fault
    case NoFault => 5
    case ModulesMissing => 1
    case YoloFails(_) => 3
    case FaceFails(_) => 4
  }

  function Outcome(fault: LoadFault): Event {
    match fault
    case NoFault => SystemStatus("ready", ModelsReadyText)
    case ModulesMissing => SystemStatus("error", LoadFailedPrefix + ModulesMissingText)
    case YoloFails(reason) => SystemStatus("error", LoadFailedPrefix + reason)
    case FaceFails(reason) => SystemStatus("error", LoadFailedPrefix + reason)
  }

  /** What one loading attempt publishes: the progress reports of the steps
      reached, then the outcome. */
  function InitEvents(fault: LoadFault): seq<Event> {
    [Progress(1)] + (if fault.ModulesMissing? then [Outcome(fault)] else InstanceEvents(fault))
  }

  /** The reports of steps 2 and 3 onwards, once the modules are present. */
  function InstanceEvents(fault: LoadFault): seq<Event> {
    [Progress(2), Progress(3)] + (if fault.YoloFails? then [Outcome(fault)] else FaceEvents(fault))
  }

  /** The reports of steps 4 and 5 onwards, once the person detector exists. */
  function FaceEvents(fault: LoadFault): seq<Event> {
    [Progress(4)] + (if fault.FaceFails? then [Outcome(fault)] else [Progress(5), Outcome(fault)])
  }

  /** A loading attempt publishes a progress report per step reached, in
      order, step `i` at `20 * i` percent, and then one status. */
  lemma InitEventsShape(fault: LoadFault)
    ensures var evs := InitEvents(fault);
      && |evs| == LastStep(fault) + 1
      && (forall i :: 0 <= i < |evs| - 1 ==>
            evs[i] == LoadingProgress(i + 1, TotalSteps, 20 * (i + 1), StepMessage(i + 1)))
      && evs[|evs| - 1] == Outcome(fault)
  {
    var evs := InitEvents(fault);
    InitEventsSteps(fault);
    forall i | 0 <= i < |evs| - 1
      ensures evs[i] == LoadingProgress(i + 1, TotalSteps, 20 * (i + 1), StepMessage(i + 1))
    {
      ProgressIs(i + 1);
    }
  }

  lemma InitEventsSteps(fault: LoadFault)
    ensures var evs := InitEvents(fault);
      && |evs| == LastStep(fault) + 1
      && (forall i :: 0 <= i < |evs| - 1 ==> evs[i] == Progress(i + 1))
      && evs[|evs| - 1] == Outcome(fault)
  {
    if !fault.ModulesMissing? {
      InstanceEventsShape(fault);
    }
  }

  lemma InstanceEventsShape(fault: LoadFault)
    requires !fault.ModulesMissing?
    ensures var evs := InstanceEvents(fault);
      && |evs| == LastStep(fault)
      && (forall i :: 0 <= i < |evs| - 1 ==> evs[i] == Progress(i + 2))
      && evs[|evs| - 1] == Outcome(fault)
  {
    if !fault.YoloFails? {
      FaceEventsShape(fault);
    }
  }

  lemma FaceEventsShape(fault: LoadFault)
    requires fault.NoFault? || fault.FaceFails?
    ensures var evs := FaceEvents(fault);
      && |evs| == LastStep(fault) - 2
      && (forall i :: 0 <= i < |evs| - 1 ==> evs[i] == Progress(i + 4))
      && evs[|evs| - 1] == Outcome(fault)
  {
  }

  lemma ProgressIs(step: nat)
    requires 1 <= step <= TotalSteps
    ensures Progress(step) == LoadingProgress(step, TotalSteps, 20 * step, StepMessage(step))
  {
    ProgressOfFiveSteps();
  }

  /** The closing status is "ready" exactly when loading succeeds, which is
      also exactly when the bar has reached 100. */
  lemma InitEventsOutcome(fault: LoadFault)
    ensures var evs := InitEvents(fault);
      && |evs| >= 2 && evs[|evs| - 1].SystemStatus?
      && (evs[|evs| - 1].status == "ready" <==> fault.NoFault?)
      && (evs[|evs| - 2].progress == 100 <==> fault.NoFault?)
  {
    InitEventsShape(fault);
    assert "error" != "ready" by {
      assert "error"[0] != "ready"[0];
    }
  }

  /** The detection loop publishes an update when a second has passed since
      the previous one. */
  predicate Due(lastEmit: int, now: int) {
    now - lastEmit >= EmitIntervalMs
  }

  function Stamp(e: Event): int {
    if e.DetectionUpdate? && e.stats.timestamp.Some? then e.stats.timestamp.value else 0
  }

  /** Updates each stamped at least a second after the previous one, the first
      a second after `prev`. */
  predicate Spaced(prev: int, evs: seq<Event>)
    decreases |evs|
  {
    evs == [] ||
    (&& evs[0].DetectionUpdate? && evs[0].stats.timestamp.Some?
     && Due(prev, Stamp(evs[0])) && Spaced(Stamp(evs[0]), evs[1..]))
  }

  /** The time of the last update, or `prev` when there is none. */
  function LastStamp(prev: int, evs: seq<Event>): int {
    if evs == [] then prev else Stamp(evs[|evs| - 1])
  }

  lemma {:induction false} SpacedSnoc(prev: int, evs: seq<Event>, e: Event)
    requires Spaced(prev, evs)
    requires e.DetectionUpdate? && e.stats.timestamp.Some?
    requires Due(LastStamp(prev, evs), Stamp(e))
    ensures Spaced(prev, evs + [e]) && LastStamp(prev, evs + [e]) == Stamp(e)
    decreases |evs|
  {
    if evs != [] {
      SpacedSnoc(Stamp(evs[0]), evs[1..], e);
      assert (evs + [e])[1..] == evs[1..] + [e];
    }
  }

  lemma {:induction false} SpacedAfter(prev: int, evs: seq<Event>, j: nat)
    requires Spaced(prev, evs) && j < |evs|
    ensures Stamp(evs[j]) - prev >= EmitIntervalMs
    decreases j
  {
    if j > 0 {
      SpacedAfter(Stamp(evs[0]), evs[1..], j - 1);
    }
  }

  /** Any two published updates are at least a second apart. */
  lemma {:induction false} SpacedApart(prev: int, evs: seq<Event>, i: nat, j: nat)
    requires Spaced(prev, evs) && i < j < |evs|
    ensures Stamp(evs[j]) - Stamp(evs[i]) >= EmitIntervalMs
    decreases i
  {
    if i == 0 {
      SpacedAfter(Stamp(evs[0]), evs[1..], j - 1);
    } else {
      SpacedApart(Stamp(evs[0]), evs[1..], i - 1, j - 1);
    }
  }

  /** The answer of `start_monitoring` once the models are loaded, given where
      `start_capture` left the read position (`outcome`): a camera that does
      not start is reported as an access failure; a started camera whose ten
      `get_frame` calls all come back empty is stopped and reported as a test
      failure; otherwise monitoring starts. */
  predicate CameraStarted(res: Response, feed: nat -> Option<Frame>, outcome: Option<nat>, running: bool) {
    && (outcome.None? ==> res == Response(false, CameraAccessText) && !running)
    && (outcome.Some? ==>
          var tested := FirstSuccess(feed, outcome.value, CameraTestAttempts * (1 + FrameRetries));
          && (tested.None? ==> res == Response(false, CameraTestText) && !running)
          && (tested.Some? ==> res == Response(true, StartedText) && running))
  }

  /** What `get_frame` on a running frame source returns when the next read
      is at `pos`: the first frame among its reads, or nothing. */
  function FrameAt(feed: nat -> Option<Frame>, pos: nat): Option<Frame> {
    match FirstSuccess(feed, pos, 1 + FrameRetries)
    case None => None
    case Some(j) => feed(pos + j)
  }

  /** `video_processor.start_capture()` as the application sees it: success
      exactly when the device opens and yields a test frame, leaving the read
      position where `CaptureOutcome` says. */
  method StartCamera(vp: VideoProcessor) returns (ok: bool)
    requires vp.Valid()
    modifies vp`cap, vp`isRunning, vp`frameReady, vp.camera`pos, vp.camera`width, vp.camera`height
    ensures vp.Valid() && vp.isRunning == ok
    ensures var outcome := CaptureOutcome(vp.camera.opens, vp.camera.feed, old(vp.camera.pos));
      (ok <==> outcome.Some?) && (ok ==> vp.camera.pos == outcome.value)
  {
    ok := vp.StartCapture();
  }

  /** One attempt of the camera check: a `get_frame` call on a running
      processor after `spent` reads from `p0` that all came back empty. The
      check has then found a frame exactly when one of the first
      `spent + 1 + FrameRetries` reads yields one. */
  method TestAttempt(vp: VideoProcessor, ghost p0: nat, ghost spent: nat) returns (got: bool)
    requires vp.Valid() && vp.isRunning
    requires vp.camera.pos == p0 + spent && FirstSuccess(vp.camera.feed, p0, spent).None?
    modifies vp`currentFrame, vp.camera`pos
    ensures vp.Valid() && vp.isRunning
    ensures got <==> FirstSuccess(vp.camera.feed, p0, spent + 1 + FrameRetries).Some?
    ensures !got ==> vp.camera.pos == p0 + spent + 1 + FrameRetries
  {
    ghost var feed := vp.camera.feed;
    ghost var t := FirstSuccess(feed, p0 + spent, 1 + FrameRetries);
    var frame := vp.GetFrame();
    if t.Some? {
      assert frame == feed(p0 + spent + t.value);
    }
    FirstSuccessAppend(feed, p0, spent, 1 + FrameRetries);
    got := frame.Some?;
  }

  /** The camera check: up to ten `get_frame` calls until one returns a
      frame. It fails exactly when all the reads they make come back empty. */
  method TestCamera(vp: VideoProcessor) returns (ok: bool)
    requires vp.Valid() && vp.isRunning
    modifies vp`currentFrame, vp.camera`pos
    ensures vp.Valid() && vp.isRunning
    ensures ok <==> FirstSuccess(vp.camera.feed, old(vp.camera.pos), CameraTestAttempts * (1 + FrameRetries)).Some?
  {
    ghost var p0, feed := vp.camera.pos, vp.camera.feed;
    assert CameraTestAttempts * (1 + FrameRetries) == 40;
    ghost var spent: nat := 0;
    var attempts := 0;
    while attempts < CameraTestAttempts
      invariant 0 <= attempts <= CameraTestAttempts && spent == 4 * attempts
      invariant vp.Valid() && vp.isRunning
      invariant vp.camera.pos == p0 + spent
      invariant FirstSuccess(feed, p0, spent).None?
    {
      var got := TestAttempt(vp, p0, spent);
      if got {
        FirstSuccessExtend(feed, p0, spent + 4, 36 - spent);
        return true;
      }
      attempts, spent := attempts + 1, spent + 4;
    }
    ok := false;
  }

  lemma AppendAssoc<T>(a: seq<T>, b: seq<T>, c: seq<T>)
    ensures (a + b) + c == a + (b + c)
  {
  }

  class CrowdMonitoringSystem {
    /** The camera the frame source opens. */
    const camera: Camera
    /** The inference behind the two detectors once loaded. */
    const personModel: Frame -> PersonDetection.YoloRun
    const faceModel: Frame -> FaceDetection.FaceRun

    var isMonitoring: bool
    var isInitializing: bool
    var modelsLoaded: bool
    var processor: VideoProcessor?
    var yolo: Option<PersonDetection.YoloDetector>
    var faces: Option<FaceDetection.FaceDetector>
    var stats: Stats
    /** Everything published so far, oldest first. */
    var events: seq<Event>

    /** Loaded models include a frame source on this camera; monitoring
        implies loaded models and a running frame source; the statistics
        always agree with their detection lists. */
    ghost predicate Valid()
      reads this, processor
    {
      && (processor != null ==> processor.camera == camera && processor.Valid())
      && (modelsLoaded ==> processor != null && yolo.Some? && faces.Some?)
      && (isMonitoring ==> modelsLoaded && processor.isRunning)
      && Consistent(stats)
    }

    constructor (camera: Camera, personModel: Frame -> PersonDetection.YoloRun,
                 faceModel: Frame -> FaceDetection.FaceRun)
      ensures Valid()
      ensures this.camera == camera && this.personModel == personModel && this.faceModel == faceModel
      ensures !isMonitoring && !isInitializing && !modelsLoaded
      ensures processor == null && yolo.None? && faces.None?
      ensures stats == InitialStats && events == []
    {
      this.camera := camera;
      this.personModel := personModel;
      this.faceModel := faceModel;
      isMonitoring, isInitializing, modelsLoaded := false, false, false;
      processor := null;
      yolo, faces := None, None;
      stats := InitialStats;
      events := [];
      InitialStatsConsistent();
    }

    /** `update_progress`: publishes the step and its percentage. */
    method UpdateProgress(step: nat, total: nat, message: string)
      requires total > 0
      modifies this`events
      ensures events == old(events) + [LoadingProgress(step, total, ProgressPercent(step, total), message)]
    {
      var progress := (step * 100) / total;
      events := events + [LoadingProgress(step, total, progress, message)];
    }

    method LoadFailed(reason: string)
      modifies this`events, this`isInitializing, this`modelsLoaded
      ensures events == old(events) + [SystemStatus("error", LoadFailedPrefix + reason)]
      ensures !isInitializing && !modelsLoaded
    {
      events := events + [SystemStatus("error", LoadFailedPrefix + reason)];
      isInitializing := false;
      modelsLoaded := false;
    }

    /** `initialize_models`: nothing to do when loaded; refused while another
        load runs; otherwise one loading attempt. */
    method InitializeModels(fault: LoadFault) returns (ok: bool)
      requires Valid()
      modifies this
      ensures Valid()
      ensures old(modelsLoaded) ==> ok && unchanged(this)
      ensures !old(modelsLoaded) && old(isInitializing) ==> !ok && unchanged(this)
      ensures !old(modelsLoaded) && !old(isInitializing) ==>
        (ok <==> fault.NoFault?) && modelsLoaded == ok && !isInitializing
      ensures !old(modelsLoaded) && !old(isInitializing) ==>
        events == old(events) + InitEvents(fault)
      ensures !old(modelsLoaded) && !old(isInitializing) ==>
        isMonitoring == old(isMonitoring) && stats == old(stats)
      ensures !old(modelsLoaded) && !old(isInitializing) && fault.ModulesMissing? ==>
        processor == old(processor) && yolo == old(yolo) && faces == old(faces)
      ensures !old(modelsLoaded) && !old(isInitializing) && !fault.ModulesMissing? ==>
        fresh(processor) && processor.camera == camera && !processor.isRunning
      ensures !old(modelsLoaded) && !old(isInitializing) && fault.YoloFails? ==>
        yolo == old(yolo) && faces == old(faces)
      ensures !old(modelsLoaded) && !old(isInitializing) && fault.FaceFails? ==>
        yolo == Some(PersonDetection.YoloDetector(YoloWeights, personModel)) && faces == old(faces)
      ensures !old(modelsLoaded) && !old(isInitializing) && fault.NoFault? ==>
        && yolo == Some(PersonDetection.YoloDetector(YoloWeights, personModel))
        && faces == Some(FaceDetection.FaceDetector(FaceThreshold, faceModel))
    {
      if modelsLoaded {
        return true;
      }
      if isInitializing {
        return false;
      }
      ok := LoadModels(fault);
    }

    /** One loading attempt: step 1 checks the detection modules; the first
        failing step ends the attempt with an error status. */
    method LoadModels(fault: LoadFault) returns (ok: bool)
      requires Valid() && !modelsLoaded
      modifies this
      ensures Valid()
      ensures (ok <==> fault.NoFault?) && modelsLoaded == ok && !isInitializing
      ensures events == old(events) + InitEvents(fault)
      ensures isMonitoring == old(isMonitoring) && stats == old(stats)
      ensures fault.ModulesMissing? ==>
        processor == old(processor) && yolo == old(yolo) && faces == old(faces)
      ensures !fault.ModulesMissing? ==>
        fresh(processor) && processor.camera == camera && !processor.isRunning
      ensures fault.YoloFails? ==> yolo == old(yolo) && faces == old(faces)
      ensures fault.FaceFails? ==>
        yolo == Some(PersonDetection.YoloDetector(YoloWeights, personModel)) && faces == old(faces)
      ensures fault.NoFault? ==>
        && yolo == Some(PersonDetection.YoloDetector(YoloWeights, personModel))
        && faces == Some(FaceDetection.FaceDetector(FaceThreshold, faceModel))
    {
      isInitializing := true;
      UpdateProgress(1, TotalSteps, StepMessage(1));
      if fault.ModulesMissing? {
        LoadFailed(ModulesMissingText);
        return false;
      }
      ok := LoadInstances(fault);
      AppendAssoc(old(events), [Progress(1)], InstanceEvents(fault));
    }

    /** Steps 2 and 3: a new frame source, then the person detector. */
    method LoadInstances(fault: LoadFault) returns (ok: bool)
      requires Valid() && !modelsLoaded && !fault.ModulesMissing?
      modifies this
      ensures Valid()
      ensures (ok <==> fault.NoFault?) && modelsLoaded == ok && !isInitializing
      ensures events == old(events) + InstanceEvents(fault)
      ensures isMonitoring == old(isMonitoring) && stats == old(stats)
      ensures fresh(processor) && processor.camera == camera && !processor.isRunning
      ensures fault.YoloFails? ==> yolo == old(yolo) && faces == old(faces)
      ensures fault.FaceFails? ==>
        yolo == Some(PersonDetection.YoloDetector(YoloWeights, personModel)) && faces == old(faces)
      ensures fault.NoFault? ==>
        && yolo == Some(PersonDetection.YoloDetector(YoloWeights, personModel))
        && faces == Some(FaceDetection.FaceDetector(FaceThreshold, faceModel))
    {
      UpdateProgress(2, TotalSteps, StepMessage(2));
      processor := new VideoProcessor(camera);
      UpdateProgress(3, TotalSteps, StepMessage(3));
      assert events == old(events) + [Progress(2), Progress(3)];
      if fault.YoloFails? {
        LoadFailed(fault.reason);
        AppendAssoc(old(events), [Progress(2), Progress(3)], [Outcome(fault)]);
        return false;
      }
      yolo := Some(PersonDetection.YoloDetector(YoloWeights, personModel));
      ok := LoadFaces(fault);
      AppendAssoc(old(events), [Progress(2), Progress(3)], FaceEvents(fault));
    }

    /** Steps 4 and 5: the face detector, then the final status. */
    method LoadFaces(fault: LoadFault) returns (ok: bool)
      requires Valid() && !modelsLoaded && (fault.FaceFails? || fault.NoFault?)
      requires processor != null && yolo.Some?
      modifies this`faces, this`events, this`modelsLoaded, this`isInitializing
      ensures Valid()
      ensures (ok <==> fault.NoFault?) && modelsLoaded == ok && !isInitializing
      ensures events == old(events) + FaceEvents(fault)
      ensures fault.FaceFails? ==> faces == old(faces)
      ensures fault.NoFault? ==> faces == Some(FaceDetection.FaceDetector(FaceThreshold, faceModel))
    {
      UpdateProgress(4, TotalSteps, StepMessage(4));
      if fault.FaceFails? {
        LoadFailed(fault.reason);
        return false;
      }
      faces := Some(FaceDetection.FaceDetector(FaceThreshold, faceModel));
      UpdateProgress(5, TotalSteps, StepMessage(5));
      events := events + [SystemStatus("ready", ModelsReadyText)];
      modelsLoaded := true;
      isInitializing := false;
      ok := true;
    }

    /** `start_monitoring`: refused while monitoring or loading; loads the
        models when needed; then starts and checks the camera. Every refusal
        or failure leaves monitoring off. */
    method StartMonitoring(fault: LoadFault) returns (res: Response)
      requires Valid()
      modifies this, processor, camera
      ensures Valid()
      ensures stats == old(stats)
      ensures old(isMonitoring) ==> res == Response(false, AlreadyMonitoringText) && unchanged(this)
      ensures !old(isMonitoring) && old(isInitializing) ==>
        res == Response(false, StillInitializingText) && unchanged(this)
      ensures !old(isMonitoring) ==> (isMonitoring <==> res.success)
      ensures res.success ==> res == Response(true, StartedText)
      ensures !old(isMonitoring) && !old(isInitializing) && !old(modelsLoaded) ==>
        && events == old(events) + [SystemStatus("loading", LoadingText)] + InitEvents(fault)
        && (!fault.NoFault? ==> res == Response(false, InitFailedText))
      ensures old(modelsLoaded) ==> events == old(events)
      ensures !old(isMonitoring) && !old(isInitializing) ==>
        !isInitializing && (modelsLoaded <==> old(modelsLoaded) || fault.NoFault?)
      ensures old(modelsLoaded) ==>
        modelsLoaded && processor == old(processor) && yolo == old(yolo) && faces == old(faces)
      ensures !old(isMonitoring) && !old(isInitializing) && !old(modelsLoaded) ==>
        && (fault.ModulesMissing? ==> processor == old(processor) && yolo == old(yolo) && faces == old(faces))
        && (!fault.ModulesMissing? ==> fresh(processor) && processor.camera == camera)
        && (fault.YoloFails? ==> yolo == old(yolo) && faces == old(faces))
        && (fault.FaceFails? ==>
              yolo == Some(PersonDetection.YoloDetector(YoloWeights, personModel)) && faces == old(faces))
        && (fault.NoFault? ==>
              && yolo == Some(PersonDetection.YoloDetector(YoloWeights, personModel))
              && faces == Some(FaceDetection.FaceDetector(FaceThreshold, faceModel)))
      ensures !old(isMonitoring) && !old(isInitializing) && (old(modelsLoaded) || fault.NoFault?) ==>
        && processor != null
        && CameraStarted(res, camera.feed, CaptureOutcome(camera.opens, camera.feed, old(camera.pos)),
                         processor.isRunning)
    {
      if isMonitoring {
        return Response(false, AlreadyMonitoringText);
      }
      if isInitializing {
        return Response(false, StillInitializingText);
      }
      if !modelsLoaded {
        var loaded := LoadForStart(fault);
        if !loaded {
          return Response(false, InitFailedText);
        }
      }
      res := StartWithModels();
    }

    /** The loading branch of `start_monitoring`: the "loading" status, then
        one loading attempt. */
    method LoadForStart(fault: LoadFault) returns (loaded: bool)
      requires Valid() && !isMonitoring && !isInitializing && !modelsLoaded
      modifies this
      ensures Valid() && !isMonitoring && !isInitializing && stats == old(stats)
      ensures (loaded <==> fault.NoFault?) && modelsLoaded == loaded
      ensures events == old(events) + [SystemStatus("loading", LoadingText)] + InitEvents(fault)
      ensures fault.ModulesMissing? ==> processor == old(processor) && yolo == old(yolo) && faces == old(faces)
      ensures !fault.ModulesMissing? ==> fresh(processor) && processor.camera == camera
      ensures fault.YoloFails? ==> yolo == old(yolo) && faces == old(faces)
      ensures fault.FaceFails? ==>
        yolo == Some(PersonDetection.YoloDetector(YoloWeights, personModel)) && faces == old(faces)
      ensures fault.NoFault? ==>
        && yolo == Some(PersonDetection.YoloDetector(YoloWeights, personModel))
        && faces == Some(FaceDetection.FaceDetector(FaceThreshold, faceModel))
    {
      events := events + [SystemStatus("loading", LoadingText)];
      loaded := InitializeModels(fault);
    }

    /** The part of `start_monitoring` once the models are loaded: start the
        camera, check it, stop it again if the check fails, else turn
        monitoring on. */
    method StartWithModels() returns (res: Response)
      requires Valid() && modelsLoaded && !isMonitoring
      modifies this`isMonitoring, processor, camera
      ensures Valid() && processor == old(processor)
      ensures isMonitoring <==> res.success
      ensures CameraStarted(res, camera.feed, CaptureOutcome(camera.opens, camera.feed, old(camera.pos)),
                            processor.isRunning)
    {
      var started := StartCamera(processor);
      if !started {
        return Response(false, CameraAccessText);
      }
      var working := TestCamera(processor);
      if !working {
        processor.StopCapture();
        return Response(false, CameraTestText);
      }
      isMonitoring := true;
      res := Response(true, StartedText);
    }

    /** `stop_monitoring`: nothing when not monitoring; otherwise monitoring
        off, the frame source stopped, the statistics reset and published. */
    method StopMonitoring() returns (res: Response)
      requires Valid()
      modifies this`isMonitoring, this`stats, this`events, processor
      ensures Valid()
      ensures !old(isMonitoring) ==>
        res == Response(true, NotMonitoringText) && unchanged(this)
        && (processor != null ==> unchanged(processor))
      ensures old(isMonitoring) ==>
        && res == Response(true, StoppedText) && !isMonitoring
        && processor == old(processor) && !processor.isRunning
        && stats == StoppedStats(old(stats))
        && events == old(events) + [DetectionUpdate(stats)]
        && modelsLoaded == old(modelsLoaded) && isInitializing == old(isInitializing)
        && yolo == old(yolo) && faces == old(faces)
        && processor.State() == AfterStop(old(processor.State()))
    {
      if !isMonitoring {
        return Response(true, NotMonitoringText);
      }
      StopActive();
      res := Response(true, StoppedText);
    }

    /** The monitoring branch of `stop_monitoring`: monitoring off, the frame
        source stopped, the statistics reset and published once. */
    method StopActive()
      requires Valid() && isMonitoring
      modifies this`isMonitoring, this`stats, this`events, processor`cap, processor`isRunning, processor`frameReady
      ensures Valid() && !isMonitoring && processor == old(processor)
      ensures processor.State() == AfterStop(old(processor.State()))
      ensures stats == StoppedStats(old(stats)) && events == old(events) + [DetectionUpdate(stats)]
    {
      // Monitoring implies a processor, so the code's `if self.video_processor`
      // always holds here. Clearing the flag and stopping the processor touch
      // disjoint state, so their order is immaterial.
      processor.StopCapture();
      isMonitoring := false;
      stats := StoppedStats(stats);
      events := events + [DetectionUpdate(stats)];
    }

    /** One pass of `process_video_loop` at clock reading `now`: a missing
        frame only counts a failure; a frame resets the failures and is
        counted; on every tenth frame both detectors run, the statistics are
        recomputed from their detections, and they are published when a
        second has passed since the last publication. */
    method LoopStep(ls: LoopState, now: int) returns (next: LoopState, frame: Option<Frame>)
      requires Valid() && isMonitoring
      modifies this`stats, this`events, processor`currentFrame, camera`pos
      ensures Valid() && isMonitoring
      ensures frame == FrameAt(camera.feed, old(camera.pos))
      ensures var t := FirstSuccess(camera.feed, old(camera.pos), 1 + FrameRetries);
        && (t.Some? ==> camera.pos == old(camera.pos) + t.value + 1)
        && (t.None? ==> camera.pos == old(camera.pos) + 1 + FrameRetries)
      ensures frame.Some? ==> processor.currentFrame == frame
      ensures frame.None? ==> processor.currentFrame == old(processor.currentFrame)
      ensures frame.None? ==>
        next == ls.(failures := ls.failures + 1) && stats == old(stats) && events == old(events)
      ensures frame.Some? ==> next.failures == 0 && next.frameCount == ls.frameCount + 1
      ensures frame.Some? && next.frameCount % DetectEvery != 0 ==>
        next.lastEmit == ls.lastEmit && stats == old(stats) && events == old(events)
      ensures frame.Some? && next.frameCount % DetectEvery == 0 ==>
        && stats == DetectedStats(PersonDetection.DetectedPersons(yolo.value, frame),
                                  FaceDetection.DetectedFaces(faces.value, frame), now)
        && (Due(ls.lastEmit, now) ==> events == old(events) + [DetectionUpdate(stats)] && next.lastEmit == now)
        && (!Due(ls.lastEmit, now) ==> events == old(events) && next.lastEmit == ls.lastEmit)
    {
      ghost var t := FirstSuccess(camera.feed, camera.pos, 1 + FrameRetries);
      frame := processor.GetFrame();
      assert t.Some? ==> camera.pos == old(camera.pos) + t.value + 1;
      if frame.None? {
        return ls.(failures := ls.failures + 1), frame;
      }
      next := CountFrame(frame, ls, now);
    }

    /** A frame was read: the failure count reset, the frame counted, and
        every `DetectEvery`-th frame sent through detection. */
    method CountFrame(frame: Option<Frame>, ls: LoopState, now: int) returns (next: LoopState)
      requires Valid() && isMonitoring
      modifies this`stats, this`events
      ensures Valid() && isMonitoring
      ensures next.failures == 0 && next.frameCount == ls.frameCount + 1
      ensures next.frameCount % DetectEvery != 0 ==>
        next.lastEmit == ls.lastEmit && stats == old(stats) && events == old(events)
      ensures next.frameCount % DetectEvery == 0 ==>
        && stats == DetectedStats(PersonDetection.DetectedPersons(yolo.value, frame),
                                  FaceDetection.DetectedFaces(faces.value, frame), now)
        && (Due(ls.lastEmit, now) ==> events == old(events) + [DetectionUpdate(stats)] && next.lastEmit == now)
        && (!Due(ls.lastEmit, now) ==> events == old(events) && next.lastEmit == ls.lastEmit)
    {
      next := LoopState(ls.frameCount + 1, ls.lastEmit, 0);
      if next.frameCount % DetectEvery == 0 {
        next := DetectAndPublish(frame, next, now);
      }
    }

    /** The detection branch of the loop: both detectors on the frame, the
        statistics recomputed, and published if a second has passed. */
    method DetectAndPublish(frame: Option<Frame>, ls: LoopState, now: int) returns (next: LoopState)
      requires Valid() && isMonitoring
      modifies this`stats, this`events
      ensures Valid()
      ensures stats == DetectedStats(PersonDetection.DetectedPersons(yolo.value, frame),
                                     FaceDetection.DetectedFaces(faces.value, frame), now)
      ensures Due(ls.lastEmit, now) ==>
        events == old(events) + [DetectionUpdate(stats)] && next == ls.(lastEmit := now)
      ensures !Due(ls.lastEmit, now) ==> events == old(events) && next == ls
    {
      var persons := PersonDetection.DetectPersons(yolo.value, frame);
      var found := FaceDetection.DetectFaces(faces.value, frame);
      stats := DetectedStats(persons, found, now);
      next := ls;
      if now - ls.lastEmit >= EmitIntervalMs {
        events := events + [DetectionUpdate(stats)];
        next := ls.(lastEmit := now);
      }
    }

    /** `process_video_loop` over a run of clock readings, one pass per
        reading, while monitoring is on: everything it publishes is a
        detection update with consistent statistics, each at least a second
        after the previous one and the first a second after `start`. */
    method ProcessVideoLoop(start: int, clock: seq<int>) returns (ls: LoopState)
      requires Valid() && isMonitoring
      modifies this`stats, this`events, processor`currentFrame, camera`pos
      ensures Valid() && isMonitoring
      ensures |events| >= |old(events)| && events[..|old(events)|] == old(events)
      ensures forall k :: |old(events)| <= k < |events| ==>
        events[k].DetectionUpdate? && Consistent(events[k].stats)
      ensures Spaced(start, events[|old(events)|..])
    {
      ghost var published: seq<Event> := [];
      ls := LoopState(0, start, 0);
      var i := 0;
      while i < |clock| && isMonitoring
        invariant 0 <= i <= |clock|
        invariant Valid() && isMonitoring
        invariant events == old(events) + published
        invariant forall k :: 0 <= k < |published| ==>
          published[k].DetectionUpdate? && Consistent(published[k].stats)
        invariant Spaced(start, published) && LastStamp(start, published) == ls.lastEmit
      {
        ghost var prev := ls;
        var frame;
        ls, frame := LoopStep(ls, clock[i]);
        if frame.Some? && ls.frameCount % DetectEvery == 0 && Due(prev.lastEmit, clock[i]) {
          SpacedSnoc(start, published, DetectionUpdate(stats));
          published := published + [DetectionUpdate(stats)];
        }
        i := i + 1;
      }
      assert events[|old(events)|..] == published;
    }
  }
}

=== FILE: text.dfy ===
/** Decimal rendering of counts, as Python's f-strings print a non-negative int. */
module Text {

  predicate IsDigit(c: char) {
    '0' <= c <= '9'
  }

  predicate AllDigits(s: string) {
    forall i :: 0 <= i < |s| ==> IsDigit(s[i])
  }

  function DigitChar(d: nat): (c: char)
    requires d < 10
    ensures IsDigit(c) && c as int - '0' as int == d
  {
    ('0' as int + d) as char
  }

  function DigitValue(c: char): (d: nat)
    requires IsDigit(c)
    ensures d < 10
  {
    c as int - '0' as int
  }

  /** `str(n)` for a non-negative integer: its decimal digits, no sign, no padding. */
  function NatToString(n: nat): (s: string)
    ensures |s| > 0 && AllDigits(s)
    ensures n < 10 <==> |s| == 1
    decreases n
  {
    if n < 10 then [DigitChar(n)] else NatToString(n / 10) + [DigitChar(n % 10)]
  }

  /** Reads a digit string back as a number. */
  function ParseNat(s: string): nat
    requires AllDigits(s)
    decreases |s|
  {
    if s == [] then 0 else 10 * ParseNat(s[..|s| - 1]) + DigitValue(s[|s| - 1])
  }

  /** Rendering a count loses nothing: it can be read back. */
  lemma {:induction false} ParseNatToString(n: nat)
    ensures ParseNat(NatToString(n)) == n
    decreases n
  {
    var s := NatToString(n);
    if n >= 10 {
      ParseNatToString(n / 10);
      assert s[..|s| - 1] == NatToString(n / 10);
    }
  }

  /** Distinct counts are rendered differently. */
  lemma NatToStringInjective(a: nat, b: nat)
    requires NatToString(a) == NatToString(b)
    ensures a == b
  {
    ParseNatToString(a);
    ParseNatToString(b);
  }

  /** A run of digits followed by a non-digit splits in only one way. */
  lemma DigitPrefixUnique(a: string, x: string, b: string, y: string)
    requires AllDigits(a) && AllDigits(b)
    requires x != [] && !IsDigit(x[0]) && y != [] && !IsDigit(y[0])
    requires a + x == b + y
    ensures a == b && x == y
  {
    var m := if |a| < |b| then |a| else |b|;
    assert IsDigit((a + x)[m]) <==> m < |a|;
    assert IsDigit((b + y)[m]) <==> m < |b|;
    assert a == (a + x)[..|a|];
    assert b == (b + y)[..|b|];
    assert x == (a + x)[|a|..];
    assert y == (b + y)[|b|..];
  }
}

=== FILE: video_processor.dfy ===
/** The frame source (`VideoProcessor`) over an abstract camera device.

    The device is a `Camera`: which capture backends open it, what frame size
    it reports back after a size request, and the result of each successive
    read (`feed(n)` is the outcome of the n-th read: a frame, or nothing).
    Sleeps are left out; every read, grab and size request is a call on the
    device. */
module Video {
  import opened Common

  /** Capture backends: DirectShow, Media Foundation, "any", and the
      backend chosen when none is named. */
  datatype Api = Dshow | Msmf | AnyApi | DefaultApi

  /** Backends tried, in order. */
  const Backends: seq<Api> := [Dshow, Msmf, AnyApi]

  /** Frame sizes requested, in order of preference. */
  const Resolutions: seq<(int, int)> := [(640, 480), (1280, 720), (320, 240)]

  const FlushReads: nat := 10
  const TestReads: nat := 10
  const GrabsAfterTest: nat := 5
  const FrameRetries: nat := 3

  /** An open-or-not capture handle on a backend. */
  datatype Capture = Capture(api: Api, isOpen: bool)

  /** The first of `budget` reads starting at position `pos` that yields a
      frame, as an offset from `pos`. */
  function FirstSuccess(feed: nat -> Option<Frame>, pos: nat, budget: nat): (r: Option<nat>)
    ensures r.Some? ==> r.value < budget && feed(pos + r.value).Some?
    decreases budget
  {
    if budget == 0 then None
    else if feed(pos).Some? then Some(0)
    else match FirstSuccess(feed, pos + 1, budget - 1)
      case None => None
      case Some(j) => Some(j + 1)
  }

  /** The reads before the first yielding one, or all of the budget when
      none yields, come back empty. */
  lemma {:induction false} FirstSuccessMisses(feed: nat -> Option<Frame>, pos: nat, budget: nat)
    ensures var r := FirstSuccess(feed, pos, budget);
      && (r.Some? ==> forall q :: pos <= q < pos + r.value ==> feed(q).None?)
      && (r.None? ==> forall q :: pos <= q < pos + budget ==> feed(q).None?)
    decreases budget
  {
    if budget > 0 && feed(pos).None? {
      FirstSuccessMisses(feed, pos + 1, budget - 1);
    }
  }

  /** A yielding read within the budget means some read succeeds. */
  lemma FirstSuccessWithin(feed: nat -> Option<Frame>, pos: nat, budget: nat, q: nat)
    requires pos <= q < pos + budget && feed(q).Some?
    ensures FirstSuccess(feed, pos, budget).Some?
  {
    FirstSuccessMisses(feed, pos, budget);
  }

  lemma FirstSuccessNone(feed: nat -> Option<Frame>, pos: nat, budget: nat)
    requires forall q :: pos <= q < pos + budget ==> feed(q).None?
    ensures FirstSuccess(feed, pos, budget).None?
  {
  }

  /** With no frame in the first `a` reads, a frame turns up within `a + b`
      reads exactly when one turns up within the `b` reads that follow. */
  lemma {:induction false} FirstSuccessAppend(feed: nat -> Option<Frame>, pos: nat, a: nat, b: nat)
    requires FirstSuccess(feed, pos, a).None?
    ensures FirstSuccess(feed, pos, a + b).Some? <==> FirstSuccess(feed, pos + a, b).Some?
    decreases a
  {
    if a > 0 {
      assert feed(pos).None?;
      FirstSuccessAppend(feed, pos + 1, a - 1, b);
    }
  }

  /** A larger budget does not change a search that already succeeds. */
  lemma {:induction false} FirstSuccessExtend(feed: nat -> Option<Frame>, pos: nat, a: nat, b: nat)
    requires FirstSuccess(feed, pos, a).Some?
    ensures FirstSuccess(feed, pos, a + b) == FirstSuccess(feed, pos, a)
    decreases a
  {
    if feed(pos).None? {
      FirstSuccessExtend(feed, pos + 1, a - 1, b);
    }
  }

  /** `FirstSuccess` is pinned down by that: the first yielding read within
      the budget, or none. */
  lemma {:induction false} FirstSuccessIs(feed: nat -> Option<Frame>, pos: nat, budget: nat, j: nat)
    requires j < budget && feed(pos + j).Some?
    requires forall q :: pos <= q < pos + j ==> feed(q).None?
    ensures FirstSuccess(feed, pos, budget) == Some(j)
    decreases j
  {
    if j > 0 {
      assert feed(pos).None?;
      FirstSuccessIs(feed, pos + 1, budget - 1, j - 1);
    }
  }

  /** A size read back as usable: both dimensions positive. */
  function Acceptable(reported: ((int, int)) -> (int, int)): ((int, int)) -> bool {
    (c: (int, int)) => reported(c).0 > 0 && reported(c).1 > 0
  }

  /** The backend `start_capture` ends up with: the first of `Backends` that
      opens, otherwise the default backend. */
  function ChosenApi(opens: Api -> bool): (api: Api)
    ensures api != DefaultApi ==> opens(api)
    ensures api == DefaultApi <==> forall i :: 0 <= i < |Backends| ==> !opens(Backends[i])
    ensures api != DefaultApi ==>
      exists k :: 0 <= k < |Backends| && Backends[k] == api && forall j :: 0 <= j < k ==> !opens(Backends[j])
  {
    var k := FirstIndex(Backends, opens);
    if k < |Backends| then Backends[k] else DefaultApi
  }

  /** The capture opens exactly when some backend, the default included, opens. */
  lemma ChosenApiOpens(opens: Api -> bool)
    ensures opens(ChosenApi(opens)) <==>
      (exists i :: 0 <= i < |Backends| && opens(Backends[i])) || opens(DefaultApi)
  {
    var k := FirstIndex(Backends, opens);
    if k < |Backends| {
      assert opens(Backends[k]);
    }
  }

  /** The size request left in force: the first acceptable one, or the last tried. */
  function SizeLeftSet(reported: ((int, int)) -> (int, int)): (c: (int, int))
    ensures exists k :: && 0 <= k < |Resolutions| && c == Resolutions[k]
                        && (forall j :: 0 <= j < k ==> !Acceptable(reported)(Resolutions[j]))
                        && (Acceptable(reported)(c) || k == |Resolutions| - 1)
  {
    var k := FirstIndex(Resolutions, Acceptable(reported));
    if k < |Resolutions| then Resolutions[k] else Resolutions[|Resolutions| - 1]
  }

  /** Where `start_capture` leaves the read position when it succeeds, or
      `None` when it fails: no backend opens, or none of the test reads after
      the warm-up yields a frame. */
  function CaptureOutcome(opens: Api -> bool, feed: nat -> Option<Frame>, pos: nat): (r: Option<nat>)
    ensures r.Some? ==> pos + FlushReads + 1 + GrabsAfterTest <= r.value <= pos + FlushReads + TestReads + GrabsAfterTest
  {
    if !opens(ChosenApi(opens)) then None
    else match FirstSuccess(feed, pos + FlushReads, TestReads)
      case None => None
      case Some(j) => Some(pos + FlushReads + j + 1 + GrabsAfterTest)
  }

  /** `start_capture` succeeds exactly when the capture opens and one of the
      ten test reads after the warm-up yields a frame; it then stops after the
      first such read, all earlier test reads having come back empty. */
  lemma CaptureOutcomeReads(opens: Api -> bool, feed: nat -> Option<Frame>, pos: nat)
    ensures var r := CaptureOutcome(opens, feed, pos);
      r.Some? <==> opens(ChosenApi(opens))
                   && exists q :: pos + FlushReads <= q < pos + FlushReads + TestReads && feed(q).Some?
    ensures var r := CaptureOutcome(opens, feed, pos);
      r.Some? ==>
        var last := r.value - 1 - GrabsAfterTest;
        && pos + FlushReads <= last && feed(last).Some?
        && forall q :: pos + FlushReads <= q < last ==> feed(q).None?
  {
    var start := pos + FlushReads;
    var t := FirstSuccess(feed, start, TestReads);
    FirstSuccessMisses(feed, start, TestReads);
    if t.Some? {
      var q := start + t.value;
      assert start <= q < start + TestReads && feed(q).Some?;
    } else {
      forall q | start <= q < start + TestReads
        ensures feed(q).None?
      {
      }
    }
  }

  /** The physical camera, seen through the capture library. */
  class Camera {
    /** Whether opening the camera on a backend succeeds. */
    const opens: Api -> bool
    /** The frame size reported back after requesting a size. */
    const reportedSize: ((int, int)) -> (int, int)
    /** The outcome of each read, by position. */
    const feed: nat -> Option<Frame>
    /** Number of reads (and grabs) done so far. */
    var pos: nat
    var width: int
    var height: int

    constructor (opens: Api -> bool, reportedSize: ((int, int)) -> (int, int),
                 feed: nat -> Option<Frame>, width: int, height: int)
      ensures this.opens == opens && this.reportedSize == reportedSize && this.feed == feed
      ensures pos == 0 && this.width == width && this.height == height
    {
      this.opens := opens;
      this.reportedSize := reportedSize;
      this.feed := feed;
      this.pos := 0;
      this.width := width;
      this.height := height;
    }

    /** `cap.read()`: the next outcome of the feed. */
    method Read() returns (f: Option<Frame>)
      modifies this`pos
      ensures f == feed(old(pos)) && pos == old(pos) + 1
    {
      f := feed(pos);
      pos := pos + 1;
    }

    /** `cap.grab()`: consumes the next outcome without returning it. */
    method Grab()
      modifies this`pos
      ensures pos == old(pos) + 1
    {
      pos := pos + 1;
    }

    /** `cap.set` of width and height: the device decides what it applies. */
    method RequestSize(w: int, h: int)
      modifies this`width, this`height
      ensures (width, height) == reportedSize((w, h))
    {
      width, height := reportedSize((w, h)).0, reportedSize((w, h)).1;
    }
  }

  /** The processor's fields, as one value. */
  datatype ProcState = ProcState(cap: Option<Capture>, isRunning: bool, frameReady: bool,
                                 currentFrame: Option<Frame>)

  /** The state after `stop_capture`: flags cleared, capture released. */
  function AfterStop(s: ProcState): (t: ProcState)
    ensures !t.isRunning && !t.frameReady && t.cap.None?
    ensures t.currentFrame == s.currentFrame
  {
    s.(cap := None, isRunning := false, frameReady := false)
  }

  /** Stopping twice is stopping once. */
  lemma StopIdempotent(s: ProcState)
    ensures AfterStop(AfterStop(s)) == AfterStop(s)
  {
  }

  /** The read-and-retry part of `get_frame`: one read plus up to
      `FrameRetries` re-reads, stopping at the first frame. */
  method ReadRetrying(camera: Camera) returns (f: Option<Frame>)
    modifies camera`pos
    ensures var t := FirstSuccess(camera.feed, old(camera.pos), 1 + FrameRetries);
      t.Some? ==> f == camera.feed(old(camera.pos) + t.value) && camera.pos == old(camera.pos) + t.value + 1
    ensures var t := FirstSuccess(camera.feed, old(camera.pos), 1 + FrameRetries);
      t.None? ==> f.None? && camera.pos == old(camera.pos) + 1 + FrameRetries
  {
    ghost var p0 := camera.pos;
    f := camera.Read();
    if f.Some? {
      FirstSuccessIs(camera.feed, p0, 1 + FrameRetries, 0);
      return;
    }
    var retry := 0;
    while retry < FrameRetries
      invariant 0 <= retry <= FrameRetries
      invariant camera.pos == p0 + 1 + retry
      invariant f.None? && forall q :: p0 <= q < p0 + 1 + retry ==> camera.feed(q).None?
    {
      f := camera.Read();
      if f.Some? {
        FirstSuccessIs(camera.feed, p0, 1 + FrameRetries, 1 + retry);
        return;
      }
      retry := retry + 1;
    }
    FirstSuccessNone(camera.feed, p0, 1 + FrameRetries);
  }

  class VideoProcessor {
    const camera: Camera
    var cap: Option<Capture>
    var isRunning: bool
    var frameReady: bool
    var currentFrame: Option<Frame>

    /** Running, frame-ready and holding an open capture go together. */
    ghost predicate Valid()
      reads this
    {
      && isRunning == frameReady
      && (cap.Some? <==> isRunning)
      && (cap.Some? ==> cap.value.isOpen)
    }

    function State(): ProcState
      reads this
    {
      ProcState(cap, isRunning, frameReady, currentFrame)
    }

    constructor (camera: Camera)
      ensures Valid() && this.camera == camera
      ensures cap.None? && !isRunning && !frameReady && currentFrame.None?
    {
      this.camera := camera;
      cap := None;
      isRunning := false;
      frameReady := false;
      currentFrame := None;
    }

    /** The backend fallback: each backend in order, the first that opens is
        kept and the rest are not tried; if none opens, the default backend. */
    method OpenCapture() returns (c: Capture)
      ensures c.api == ChosenApi(camera.opens) && c.isOpen == camera.opens(c.api)
    {
      var i := 0;
      while i < |Backends|
        invariant 0 <= i <= |Backends|
        invariant forall j :: 0 <= j < i ==> !camera.opens(Backends[j])
      {
        var attempt := Capture(Backends[i], camera.opens(Backends[i]));
        if attempt.isOpen {
          return attempt;
        }
        i := i + 1;
      }
      c := Capture(DefaultApi, camera.opens(DefaultApi));
    }

    /** The size negotiation: request each size in order and keep the first
        whose read-back width and height are both positive. Returns its
        position, or `|Resolutions|` when none was accepted. */
    method ConfigureResolution() returns (k: nat)
      modifies camera`width, camera`height
      ensures k == FirstIndex(Resolutions, Acceptable(camera.reportedSize))
      ensures (camera.width, camera.height) == camera.reportedSize(SizeLeftSet(camera.reportedSize))
    {
      k := 0;
      while k < |Resolutions|
        invariant 0 <= k <= |Resolutions|
        invariant forall j :: 0 <= j < k ==> !Acceptable(camera.reportedSize)(Resolutions[j])
        invariant k > 0 ==> (camera.width, camera.height) == camera.reportedSize(Resolutions[k - 1])
      {
        var (w, h) := Resolutions[k];
        camera.RequestSize(w, h);
        var actualWidth, actualHeight := camera.width, camera.height;
        if actualWidth > 0 && actualHeight > 0 {
          return;
        }
        k := k + 1;
      }
    }

    /** Warm-up: discard the first frames. */
    method FlushFrames()
      modifies camera`pos
      ensures camera.pos == old(camera.pos) + FlushReads
    {
      var n := 0;
      while n < FlushReads
        invariant 0 <= n <= FlushReads
        invariant camera.pos == old(camera.pos) + n
      {
        var _ := camera.Read();
        n := n + 1;
      }
    }

    /** Test capture: up to `TestReads` reads until one yields a frame; on
        success the buffer is cleared with `GrabsAfterTest` grabs. */
    method TestCapture() returns (ok: bool)
      modifies camera`pos
      ensures var t := FirstSuccess(camera.feed, old(camera.pos), TestReads);
        && (ok <==> t.Some?)
        && (ok ==> camera.pos == old(camera.pos) + t.value + 1 + GrabsAfterTest)
        && (!ok ==> camera.pos == old(camera.pos) + TestReads)
    {
      var attempt := 0;
      while attempt < TestReads
        invariant 0 <= attempt <= TestReads
        invariant camera.pos == old(camera.pos) + attempt
        invariant forall q :: old(camera.pos) <= q < old(camera.pos) + attempt ==> camera.feed(q).None?
      {
        var testFrame := camera.Read();
        if testFrame.Some? {
          var g := 0;
          while g < GrabsAfterTest
            invariant 0 <= g <= GrabsAfterTest
            invariant camera.pos == old(camera.pos) + attempt + 1 + g
          {
            camera.Grab();
            g := g + 1;
          }
          FirstSuccessIs(camera.feed, old(camera.pos), TestReads, attempt);
          return true;
        }
        attempt := attempt + 1;
      }
      ok := false;
    }

    /** `start_capture`: release any previous capture, open a backend,
        negotiate the size, warm up and test. On success the processor is
        running with the new open capture; on any failure it holds no capture
        and both flags are cleared. */
    method StartCapture() returns (ok: bool)
      requires Valid()
      modifies this`cap, this`isRunning, this`frameReady, camera`pos, camera`width, camera`height
      ensures Valid()
      ensures ok == isRunning
      ensures var api := ChosenApi(camera.opens);
        !camera.opens(api) ==>
          && !ok && cap.None?
          && camera.pos == old(camera.pos)
          && camera.width == old(camera.width) && camera.height == old(camera.height)
      ensures var api := ChosenApi(camera.opens);
        camera.opens(api) ==>
          var t := FirstSuccess(camera.feed, old(camera.pos) + FlushReads, TestReads);
          && (camera.width, camera.height) == camera.reportedSize(SizeLeftSet(camera.reportedSize))
          && (ok <==> t.Some?)
          && (ok ==> cap == Some(Capture(api, true))
                     && camera.pos == old(camera.pos) + FlushReads + t.value + 1 + GrabsAfterTest)
          && (!ok ==> cap.None? && camera.pos == old(camera.pos) + FlushReads + TestReads)
    {
      if cap.Some? {
        cap := None;  // release the previous capture
      }
      var c := OpenCapture();
      if !c.isOpen {
        cap, isRunning, frameReady := None, false, false;
        return false;
      }
      cap := Some(c);
      ghost var p0 := camera.pos;
      var _ := ConfigureResolution();
      FlushFrames();
      assert camera.pos == p0 + FlushReads;
      ok := TestCapture();
      ghost var t := FirstSuccess(camera.feed, p0 + FlushReads, TestReads);
      assert ok <==> t.Some?;
      if ok {
        isRunning, frameReady := true, true;
      } else {
        cap, isRunning, frameReady := None, false, false;
      }
    }

    /** `stop_capture`: clear both flags and release the capture. */
    method StopCapture()
      modifies this`cap, this`isRunning, this`frameReady
      ensures Valid()
      ensures State() == AfterStop(old(State()))
    {
      isRunning := false;
      frameReady := false;
      if cap.Some? {
        cap := None;
      }
    }

    /** `get_frame`: nothing without reading when not running or without an
        open capture; otherwise one read plus up to `FrameRetries` re-reads,
        returning the first frame obtained and keeping it as the current frame. */
    method GetFrame() returns (f: Option<Frame>)
      requires Valid()
      modifies this`currentFrame, camera`pos
      ensures Valid()
      ensures !(isRunning && cap.Some? && cap.value.isOpen) ==>
        f.None? && camera.pos == old(camera.pos) && currentFrame == old(currentFrame)
      ensures isRunning && cap.Some? && cap.value.isOpen ==>
        var t := FirstSuccess(camera.feed, old(camera.pos), 1 + FrameRetries);
        && (t.Some? ==> f == camera.feed(old(camera.pos) + t.value)
                        && camera.pos == old(camera.pos) + t.value + 1 && currentFrame == f)
        && (t.None? ==> f.None? && camera.pos == old(camera.pos) + 1 + FrameRetries
                        && currentFrame == old(currentFrame))
    {
      if !isRunning || cap.None? || !cap.value.isOpen {
        return None;
      }
      f := ReadRetrying(camera);
      if f.None? {
        return None;
      }
      currentFrame := f;
    }

    /** `is_camera_working`: running, frame-ready and holding an open capture;
        under the invariant that is just "running". */
    function IsCameraWorking(): (r: bool)
      reads this
      ensures Valid() ==> (r <==> isRunning)
    {
      isRunning && frameReady && cap.Some? && cap.value.isOpen
    }
  }
}

=== FILE: violence.dfy ===
/** The violence-detection model wrapper (`ViolenceDetectionWrapper`): the
    violence score of one image's detections and the input dispatch of its
    prediction.

    The score is counted in twentieths (0.1 = 2, 0.15 = 3, 0.2 = 4, 0.3 = 6,
    1.0 = 20), so every component and threshold is exact. */
module Violence {
  import opened Common
  import opened Geometry
  import opened Inputs
  import FaceDetection
  import PersonDetection

  datatype Threat = ThreatLow | ThreatMedium | ThreatHigh

  datatype ViolenceFlag =
    | NoPeopleDetected | MediumCrowd | LargeCrowd
    | CloseProximity | LowFaceVisibility | LargePersonSize | EdgePositioning

  /** The text each behaviour flag is reported as. */
  function FlagName(f: ViolenceFlag): string {
    match f
    case NoPeopleDetected => "no_people_detected"
    case MediumCrowd => "medium_crowd"
    case LargeCrowd => "large_crowd"
    case CloseProximity => "close_proximity"
    case LowFaceVisibility => "low_face_visibility"
    case LargePersonSize => "large_person_size"
    case EdgePositioning => "edge_positioning"
  }

  /** Score (in twentieths, capped at 20), threat level and flags. */
  datatype ViolenceAnalysis = ViolenceAnalysis(score: nat, threat: Threat, flags: seq<ViolenceFlag>)

  /** The crowd component: 0 with nobody, 0.1 for 1-3 people, 0.2 for 4-6,
      0.3 for 7 or more. */
  function CrowdPoints(n: nat): (p: nat)
    ensures n == 0 ==> p == 0
    ensures 1 <= n <= 3 ==> p == 2
    ensures 4 <= n <= 6 ==> p == 4
    ensures n >= 7 ==> p == 6
  {
    if n == 0 then 0 else if n <= 3 then 2 else if n <= 6 then 4 else 6
  }

  function CrowdFlags(n: nat): (fs: seq<ViolenceFlag>)
    ensures NoPeopleDetected in fs <==> n == 0
    ensures MediumCrowd in fs <==> 4 <= n <= 6
    ensures LargeCrowd in fs <==> n >= 7
    ensures forall x :: x in fs ==> x.NoPeopleDetected? || x.MediumCrowd? || x.LargeCrowd?
  {
    if n == 0 then [NoPeopleDetected] else if n <= 3 then [] else if n <= 6 then [MediumCrowd] else [LargeCrowd]
  }

  /** The proximity component: 0.1 per close pair, at most 0.3. */
  function ProximityPoints(close: nat): (p: nat)
    ensures p <= 6 && p <= 2 * close
    ensures close <= 3 ==> p == 2 * close
    ensures close >= 3 ==> p == 6
  {
    if 2 * close <= 6 then 2 * close else 6
  }

  /** Fewer than half as many faces as people. */
  predicate FewFaces(n: nat, faces: nat) {
    n > 0 && 2 * faces < n
  }

  /** The mean box area exceeds 0.3 of the image area. */
  predicate LargePeople(boxes: seq<BBox>, w: Dim, h: Dim) {
    |boxes| > 0 && 10 * AreaSum(boxes) > 3 * |boxes| * (w * h)
  }

  /** The integer test is the source's test on the normalised mean area. */
  lemma LargePeopleIsMeanArea(boxes: seq<BBox>, w: Dim, h: Dim)
    requires |boxes| > 0
    ensures LargePeople(boxes, w, h) <==>
      (AreaSum(boxes) as real / |boxes| as real) / (w * h) as real > 0.3
  {
    MeanAboveOfFrame(AreaSum(boxes), |boxes|, w, h);
  }

  lemma MeanAboveOfFrame(total: int, n: nat, w: Dim, h: Dim)
    requires n > 0
    ensures 10 * total > 3 * n * (w * h) <==> (total as real / n as real) / (w * h) as real > 0.3
  {
    MeanAbove(total, n, w * h);
  }

  lemma MeanAbove(total: int, n: nat, a: nat)
    requires n > 0 && a > 0
    ensures 10 * total > 3 * n * a <==> (total as real / n as real) / a as real > 0.3
  {
    var N, A, T := n as real, a as real, total as real;
    var mean := T / N;
    AboveFraction(mean, A, 3.0, 10.0);
    assert 10.0 * mean > 3.0 * A <==> mean > (3.0 * A) / 10.0;
    AboveFraction(T, N, 3.0 * A, 10.0);
    CastMul(3 * n, a);
    CastMul(3, n);
    assert (3 * n * a) as real == (3.0 * A) * N;
  }

  lemma CastMul(x: int, y: int)
    ensures (x * y) as real == x as real * y as real
  {
  }

  /** `x / d > c / e` exactly when `e * x > c * d`, for positive `d` and `e`. */
  lemma AboveFraction(x: real, d: real, c: real, e: real)
    requires d > 0.0 && e > 0.0
    ensures x / d > c / e <==> e * x > c * d
  {
    var q, r := x / d, c / e;
    assert q * d == x && r * e == c;
    assert e * x == (q * d) * e && c * d == (r * e) * d;
    assert (q * d) * e - (r * e) * d == (q - r) * (d * e);
    assert d * e > 0.0;
  }

  /** A box reaching into the outer tenth of the frame on any side. */
  predicate TouchesMargin(b: BBox, w: Dim, h: Dim) {
    10 * b.x1 < w || 10 * b.x2 > 9 * w || 10 * b.y1 < h || 10 * b.y2 > 9 * h
  }

  function MarginTest(w: Dim, h: Dim): BBox -> bool {
    (b: BBox) => TouchesMargin(b, w, h)
  }

  /** More than half of the people touch the margin; never with nobody. */
  predicate EdgePositioned(boxes: seq<BBox>, w: Dim, h: Dim) {
    2 * Count(boxes, MarginTest(w, h)) > |boxes|
  }

  /** The uncapped score: the sum of the five components. */
  function RawScore(persons: seq<Detection>, faces: seq<Detection>, w: Dim, h: Dim): nat {
    var n := |persons|;
    var boxes := Boxes(persons);
    var close := if n >= 2 then ClosePairs(boxes, w, h) else 0;
    CrowdPoints(n)
    + (if close > 0 then ProximityPoints(close) else 0)
    + LaterPoints(FewFaces(n, |faces|), LargePeople(boxes, w, h), EdgePositioned(boxes, w, h))
  }

  /** The face, size and margin components: 0.2, 0.1 and 0.15. */
  function LaterPoints(fewFaces: bool, large: bool, edge: bool): nat {
    (if fewFaces then 4 else 0) + (if large then 2 else 0) + (if edge then 3 else 0)
  }

  /** Threat of a score in twentieths: below 0.3 low, below 0.6 medium,
      otherwise high. */
  function ThreatOf(score: nat): (t: Threat)
    ensures t == ThreatLow <==> score as real / 20.0 < 0.3
    ensures t == ThreatMedium <==> 0.3 <= score as real / 20.0 < 0.6
    ensures t == ThreatHigh <==> score as real / 20.0 >= 0.6
  {
    if score < 6 then ThreatLow else if score < 12 then ThreatMedium else ThreatHigh
  }

  function ThreatRank(t: Threat): nat {
    match t
    case ThreatLow => 0
    case ThreatMedium => 1
    case ThreatHigh => 2
  }

  /** A higher score never lowers the threat level. */
  lemma ThreatMonotone(a: nat, b: nat)
    requires a <= b
    ensures ThreatRank(ThreatOf(a)) <= ThreatRank(ThreatOf(b))
  {
  }

  /** The flags in the order they are raised. */
  function ViolenceFlags(n: nat, close: nat, fewFaces: bool, large: bool, edge: bool): seq<ViolenceFlag> {
    CrowdFlags(n) + ComponentFlags(close, fewFaces, large, edge)
  }

  /** The flags of the four components after the crowd size. */
  function ComponentFlags(close: nat, fewFaces: bool, large: bool, edge: bool): seq<ViolenceFlag> {
    (if close > 0 then [CloseProximity] else []) + LaterFlags(fewFaces, large, edge)
  }

  /** The flags of the face, size and margin components. */
  function LaterFlags(fewFaces: bool, large: bool, edge: bool): seq<ViolenceFlag> {
    (if fewFaces then [LowFaceVisibility] else [])
    + (if large then [LargePersonSize] else [])
    + (if edge then [EdgePositioning] else [])
  }

  /** What `analyze_violence_indicators` returns. */
  function ViolenceSpec(persons: seq<Detection>, faces: seq<Detection>, w: Dim, h: Dim): ViolenceAnalysis {
    var n := |persons|;
    var boxes := Boxes(persons);
    var close := if n >= 2 then ClosePairs(boxes, w, h) else 0;
    var raw := RawScore(persons, faces, w, h);
    var score := if raw <= 20 then raw else 20;
    ViolenceAnalysis(score, ThreatOf(score),
      ViolenceFlags(n, close, FewFaces(n, |faces|), LargePeople(boxes, w, h), EdgePositioned(boxes, w, h)))
  }

  /** The raw score is at most 1.05, the reported score is the raw score
      capped at 1.0, and the threat is read from the capped score. */
  lemma ScoreBounds(persons: seq<Detection>, faces: seq<Detection>, w: Dim, h: Dim)
    ensures RawScore(persons, faces, w, h) <= 21
    ensures var r := ViolenceSpec(persons, faces, w, h);
      && r.score <= 20
      && (RawScore(persons, faces, w, h) <= 20 ==> r.score == RawScore(persons, faces, w, h))
      && r.threat == ThreatOf(r.score)
  {
  }

  /** Each flag is raised exactly under its condition. */
  lemma ViolenceFlagsRaised(n: nat, close: nat, fewFaces: bool, large: bool, edge: bool)
    ensures var fs := ViolenceFlags(n, close, fewFaces, large, edge);
      && (NoPeopleDetected in fs <==> n == 0)
      && (MediumCrowd in fs <==> 4 <= n <= 6)
      && (LargeCrowd in fs <==> n >= 7)
      && (CloseProximity in fs <==> close > 0)
      && (LowFaceVisibility in fs <==> fewFaces)
      && (LargePersonSize in fs <==> large)
      && (EdgePositioning in fs <==> edge)
  {
    CrowdSizeFlagsRaised(n, close, fewFaces, large, edge);
    ComponentFlagsRaised(n, close, fewFaces, large, edge);
  }

  lemma CrowdSizeFlagsRaised(n: nat, close: nat, fewFaces: bool, large: bool, edge: bool)
    ensures var fs := ViolenceFlags(n, close, fewFaces, large, edge);
      && (NoPeopleDetected in fs <==> n == 0)
      && (MediumCrowd in fs <==> 4 <= n <= 6)
      && (LargeCrowd in fs <==> n >= 7)
  {
    var a, rest := CrowdFlags(n), ComponentFlags(close, fewFaces, large, edge);
    var later := LaterFlags(fewFaces, large, edge);
    assert NoPeopleDetected !in later && MediumCrowd !in later && LargeCrowd !in later;
    assert NoPeopleDetected !in rest && MediumCrowd !in rest && LargeCrowd !in rest;
  }

  lemma ComponentFlagsRaised(n: nat, close: nat, fewFaces: bool, large: bool, edge: bool)
    ensures var fs := ViolenceFlags(n, close, fewFaces, large, edge);
      && (CloseProximity in fs <==> close > 0)
      && (LowFaceVisibility in fs <==> fewFaces)
      && (LargePersonSize in fs <==> large)
      && (EdgePositioning in fs <==> edge)
  {
    var a := CrowdFlags(n);
    var b := if close > 0 then [CloseProximity] else [];
    var c := if fewFaces then [LowFaceVisibility] else [];
    var d := if large then [LargePersonSize] else [];
    var e := if edge then [EdgePositioning] else [];
    assert LaterFlags(fewFaces, large, edge) == c + d + e;
    assert CloseProximity !in a && LowFaceVisibility !in a && LargePersonSize !in a && EdgePositioning !in a;
  }

  /** The components of the analysis as the source states them: close
      proximity needs a close pair (so at least two people), low face
      visibility needs someone present, and edge positioning never happens
      with nobody. */
  lemma ViolenceTable(persons: seq<Detection>, faces: seq<Detection>, w: Dim, h: Dim)
    ensures var r := ViolenceSpec(persons, faces, w, h);
      var n := |persons|;
      var boxes := Boxes(persons);
      var close := ClosePairs(boxes, w, h);
      && (n < 2 ==> close == 0)
      && (CloseProximity in r.flags <==> close > 0)
      && (LowFaceVisibility in r.flags <==> n > 0 && 2 * |faces| < n)
      && (LargePersonSize in r.flags <==> LargePeople(boxes, w, h))
      && (EdgePositioning in r.flags <==> 2 * Count(boxes, MarginTest(w, h)) > n)
      && (n == 0 ==> EdgePositioning !in r.flags && r.flags == [NoPeopleDetected])
  {
    var n := |persons|;
    var boxes := Boxes(persons);
    if n < 2 {
      ClosePairsBound(boxes, w, h);
    }
    var close := if n >= 2 then ClosePairs(boxes, w, h) else 0;
    ViolenceFlagsRaised(n, close, FewFaces(n, |faces|), LargePeople(boxes, w, h), EdgePositioned(boxes, w, h));
  }

  lemma {:induction false} CountAll<T>(s: seq<T>, p: T -> bool)
    requires forall k :: 0 <= k < |s| ==> p(s[k])
    ensures Count(s, p) == |s|
    decreases |s|
  {
    if s != [] {
      CountAll(s[..|s| - 1], p);
    }
  }

  /** Copies of one box that is close to itself are all pairwise close. */
  lemma {:induction false} ClosePairsOfCopies(boxes: seq<BBox>, b: BBox, w: Dim, h: Dim)
    requires Close(b, b, w, h)
    requires forall k :: 0 <= k < |boxes| ==> boxes[k] == b
    ensures 2 * ClosePairs(boxes, w, h) == |boxes| * (|boxes| - 1)
    decreases |boxes|
  {
    if boxes != [] {
      var rest := boxes[1..];
      CountAll(rest, CloseTo(boxes[0], w, h));
      ClosePairsOfCopies(rest, b, w, h);
      PairsStep(|rest|);
    }
  }

  lemma {:induction false} AreaSumOfCopies(boxes: seq<BBox>, b: BBox)
    requires forall k :: 0 <= k < |boxes| ==> boxes[k] == b
    ensures AreaSum(boxes) == |boxes| * Area(b)
    decreases |boxes|
  {
    if boxes != [] {
      AreaSumOfCopies(boxes[..|boxes| - 1], b);
    }
  }

  /** The cap matters: seven people each filling a 100 by 100 frame, with no
      faces, score 0.3 + 0.3 + 0.2 + 0.1 + 0.15 = 1.05 before the cap. */
  lemma RawMaximumReached()
    ensures var p := Detection(BBox(0, 0, 100, 100), 0.9, PersonDetection.PersonClass);
      var persons := [p, p, p, p, p, p, p];
      RawScore(persons, [], 100, 100) == 21 && ViolenceSpec(persons, [], 100, 100).score == 20
  {
    var b := BBox(0, 0, 100, 100);
    var p := Detection(b, 0.9, PersonDetection.PersonClass);
    var persons := [p, p, p, p, p, p, p];
    var boxes := Boxes(persons);
    assert |boxes| == 7;
    ClosePairsOfCopies(boxes, b, 100, 100);
    assert ClosePairs(boxes, 100, 100) == 21;
    AreaSumOfCopies(boxes, b);
    assert LargePeople(boxes, 100, 100);
    CountAll(boxes, MarginTest(100, 100));
    assert EdgePositioned(boxes, 100, 100);
    assert RawScore(persons, [], 100, 100) == 6 + 6 + 4 + 2 + 3;
  }

  /** Step 1: the crowd component. */
  method CrowdStep(n: nat) returns (points: nat, flags: seq<ViolenceFlag>)
    ensures points == CrowdPoints(n) && flags == CrowdFlags(n)
  {
    if n == 0 {
      points, flags := 0, [NoPeopleDetected];
    } else if 1 <= n <= 3 {
      points, flags := 2, [];
    } else if 4 <= n <= 6 {
      points, flags := 4, [MediumCrowd];
    } else {
      points, flags := 6, [LargeCrowd];
    }
  }

  /** Step 2: close pairs, only with at least two people; 0.1 per pair, at most 0.3. */
  method ProximityStep(boxes: seq<BBox>, w: Dim, h: Dim) returns (close: nat, points: nat, flags: seq<ViolenceFlag>)
    ensures close == (if |boxes| >= 2 then ClosePairs(boxes, w, h) else 0)
    ensures points == (if close > 0 then ProximityPoints(close) else 0)
    ensures flags == (if close > 0 then [CloseProximity] else [])
  {
    close, points, flags := 0, 0, [];
    if |boxes| >= 2 {
      close := CountClosePairs(boxes, w, h);
      if close > 0 {
        points := if 2 * close <= 6 then 2 * close else 6;
        flags := [CloseProximity];
      }
    }
  }

  /** Step 5: one pass counting the people touching the margin. */
  method CountMarginPeople(boxes: seq<BBox>, w: Dim, h: Dim) returns (edge: nat)
    ensures edge == Count(boxes, MarginTest(w, h))
  {
    ghost var touches := MarginTest(w, h);
    edge := 0;
    var i := 0;
    while i < |boxes|
      invariant 0 <= i <= |boxes|
      invariant edge == Count(boxes[..i], touches)
    {
      CountPrefix(boxes, touches, i);
      var b := boxes[i];
      if 10 * b.x1 < w || 10 * b.x2 > 9 * w || 10 * b.y1 < h || 10 * b.y2 > 9 * h {
        edge := edge + 1;
      }
      i := i + 1;
    }
    assert boxes[..i] == boxes;
  }

  /** Steps 3 to 5: fewer than half as many faces as people, a mean box
      area above 0.3 of the image, more than half of the people at the margin. */
  method LaterSteps(n: nat, faceCount: nat, boxes: seq<BBox>, w: Dim, h: Dim) returns (points: nat, flags: seq<ViolenceFlag>)
    requires n == |boxes|
    ensures points == LaterPoints(FewFaces(n, faceCount), LargePeople(boxes, w, h), EdgePositioned(boxes, w, h))
    ensures flags == LaterFlags(FewFaces(n, faceCount), LargePeople(boxes, w, h), EdgePositioned(boxes, w, h))
  {
    points, flags := 0, [];
    if n > 0 && 2 * faceCount < n {
      points, flags := points + 4, flags + [LowFaceVisibility];
    }
    var large := n > 0 && 10 * AreaSum(boxes) > 3 * n * (w * h);
    if large {
      points, flags := points + 2, flags + [LargePersonSize];
    }
    var edge := CountMarginPeople(boxes, w, h);
    if 2 * edge > n {
      points, flags := points + 3, flags + [EdgePositioning];
    }
  }

  /** The specification with the components spelled out as the method adds them. */
  lemma ViolenceSpecParts(persons: seq<Detection>, faces: seq<Detection>, w: Dim, h: Dim)
    ensures var n, boxes := |persons|, Boxes(persons);
      var close := if n >= 2 then ClosePairs(boxes, w, h) else 0;
      var few, large, edge := FewFaces(n, |faces|), LargePeople(boxes, w, h), EdgePositioned(boxes, w, h);
      var raw := CrowdPoints(n) + (if close > 0 then ProximityPoints(close) else 0) + LaterPoints(few, large, edge);
      var score := if raw <= 20 then raw else 20;
      ViolenceSpec(persons, faces, w, h)
        == ViolenceAnalysis(score, ThreatOf(score),
                            CrowdFlags(n) + ((if close > 0 then [CloseProximity] else []) + LaterFlags(few, large, edge)))
  {
  }

  /** The violence analysis: the five components added up in order, each
      with its flag, then the cap and the threat level. */
  method AnalyzeViolenceIndicators(persons: seq<Detection>, faces: seq<Detection>, w: Dim, h: Dim)
    returns (r: ViolenceAnalysis)
    ensures r == ViolenceSpec(persons, faces, w, h)
  {
    var n := |persons|;
    var boxes := Boxes(persons);
    // 1. crowd
    var score, flags := CrowdStep(n);
    // 2. proximity
    var close, proximityPoints, proximityFlags := ProximityStep(boxes, w, h);
    score, flags := score + proximityPoints, flags + proximityFlags;
    // 3 to 5. faces, box size, margin
    var laterPoints, laterFlags := LaterSteps(n, |faces|, boxes, w, h);
    score, flags := score + laterPoints, flags + laterFlags;
    ViolenceSpecParts(persons, faces, w, h);
    assert flags == CrowdFlags(n) + (proximityFlags + laterFlags);
    score := if score <= 20 then score else 20;
    var threat := if score < 6 then ThreatLow else if score < 12 then ThreatMedium else ThreatHigh;
    r := ViolenceAnalysis(score, threat, flags);
  }

  /** The wrapper's input: a request dict, or anything else taken directly as
      the image; `None` stands for Python's `None`. */
  datatype ViolenceInput = DictInput(item: InputItem) | DirectInput(image: Option<Frame>)

  datatype ViolenceModels = ViolenceModels(persons: PersonDetection.YoloDetector, faces: FaceDetection.FaceDetector)

  datatype ViolenceResult =
    | ViolenceError(message: string)
    | ViolenceReport(
        score: nat,
        threat: Threat,
        personCount: nat,
        faceCount: nat,
        flags: seq<ViolenceFlag>,
        personDetections: seq<Detection>,
        faceDetections: seq<Detection>,
        dimensions: string,
        modelVersion: string,
        avgPersonConfidence: real,
        avgFaceConfidence: real)

  const PredictionFailurePrefix := "Prediction failed: "

  /** The image the input resolves to: decoded from the dict's chosen key, or
      taken directly; `None` when there is no key. */
  function ResolveInput(dec: Decoders, input: ViolenceInput): Option<Load> {
    match input
    case DictInput(item) =>
      (match SelectSource(item)
       case None => None
       case Some(src) => Some(LoadImage(dec, src)))
    case DirectInput(image) =>
      Some(match image case Some(f) => Loaded(f) case None => NotLoaded)
  }

  /** The result for one image: both detectors, the analysis, and the report. */
  function ReportFor(m: ViolenceModels, image: Frame): ViolenceResult {
    var persons := PersonDetection.DetectedPersons(m.persons, Some(image));
    var faces := FaceDetection.DetectedFaces(m.faces, Some(image));
    var a := ViolenceSpec(persons, faces, image.width, image.height);
    ViolenceReport(a.score, a.threat, |persons|, |faces|, a.flags, persons, faces,
                   DimensionsText(image.width, image.height), ModelVersion,
                   MeanConfidence(persons), MeanConfidence(faces))
  }

  /** `predict`: dispatch on the input, then analyse the image. A dict with
      none of the keys gives the invalid-format error, an image that did not
      load gives "Could not load image", a decoder exception gives the
      prediction-failed error with its text; a loaded image gets the report
      of both detectors on it and of their analysis, whose counts are the
      lengths of its detection lists and whose score is at most 1.0. */
  function PredictViolence(m: ViolenceModels, dec: Decoders, input: ViolenceInput): (r: ViolenceResult)
    ensures input.DictInput? && SelectSource(input.item).None? ==> r == ViolenceError(InvalidFormatText)
    ensures input == DirectInput(None) ==> r == ViolenceError(LoadFailedText)
    ensures ResolveInput(dec, input) == Some(NotLoaded) ==> r == ViolenceError(LoadFailedText)
    ensures ResolveInput(dec, input).Some? && ResolveInput(dec, input).value.Raised?
      ==> r == ViolenceError(PredictionFailurePrefix + ResolveInput(dec, input).value.message)
    ensures r.ViolenceReport? ==>
      && ResolveInput(dec, input).Some? && ResolveInput(dec, input).value.Loaded?
      && r.personCount == |r.personDetections| && r.faceCount == |r.faceDetections|
      && r.score <= 20 && r.threat == ThreatOf(r.score)
      && (r.personDetections == [] ==> r.avgPersonConfidence == 0.0)
      && (r.faceDetections == [] ==> r.avgFaceConfidence == 0.0)
    ensures ResolveInput(dec, input).Some? && ResolveInput(dec, input).value.Loaded? ==>
      var image := ResolveInput(dec, input).value.image;
      var persons := PersonDetection.DetectedPersons(m.persons, Some(image));
      var faces := FaceDetection.DetectedFaces(m.faces, Some(image));
      var a := ViolenceSpec(persons, faces, image.width, image.height);
      && r.ViolenceReport?
      && r.personDetections == persons && r.faceDetections == faces
      && r.score == a.score && r.threat == a.threat && r.flags == a.flags
      && r.dimensions == DimensionsText(image.width, image.height)
      && r.avgPersonConfidence == MeanConfidence(persons)
      && r.avgFaceConfidence == MeanConfidence(faces)
  {
    match ResolveInput(dec, input)
    case None => ViolenceError(InvalidFormatText)
    case Some(Raised(msg)) => ViolenceError(PredictionFailurePrefix + msg)
    case Some(NotLoaded) => ViolenceError(LoadFailedText)
    case Some(Loaded(image)) =>
      var persons := PersonDetection.DetectedPersons(m.persons, Some(image));
      var faces := FaceDetection.DetectedFaces(m.faces, Some(image));
      ScoreBounds(persons, faces, image.width, image.height);
      ReportFor(m, image)
  }
}

=== FILE: yolo_detector.dfy ===
/** Post-processing of the person model's output (`YOLODetector.detect_persons`):
    take the first result object, keep the boxes scoring above 0.3, truncate
    their corners to integers and tag them as persons. The model itself is an
    opaque function of the frame. */
module PersonDetection {
  import opened Common

  /** One raw box: corners in pixels (floats) and its score. */
  datatype RawBox = RawBox(x1: real, y1: real, x2: real, y2: real, score: real)

  /** One result object of the model; its box list may be absent. */
  datatype YoloResult = YoloResult(boxes: Option<seq<RawBox>>)

  /** Running the model on a frame: it raised, or it gave result objects. */
  datatype YoloRun = YoloError | YoloResults(results: seq<YoloResult>)

  /** A constructed detector: the weights file it was built from and the model. */
  datatype YoloDetector = YoloDetector(weights: string, model: Frame -> YoloRun)

  const PersonClass := "person"

  /** The post-filter threshold (0.3), exact. */
  const PersonThreshold: real := 0.3

  function ToPerson(b: RawBox): Detection {
    Detection(BBox(Trunc(b.x1), Trunc(b.y1), Trunc(b.x2), Trunc(b.y2)), b.score, PersonClass)
  }

  function Confident(): RawBox -> bool {
    (b: RawBox) => b.score > PersonThreshold
  }

  /** The boxes of the first result object, or none. */
  function FirstBoxes(run: YoloRun): (boxes: seq<RawBox>)
    ensures run.YoloError? ==> boxes == []
    ensures run.YoloResults? && |run.results| > 0 && run.results[0].boxes.Some?
      ==> boxes == run.results[0].boxes.value
    ensures run.YoloResults? && (run.results == [] || run.results[0].boxes.None?) ==> boxes == []
  {
    match run
    case YoloError => []
    case YoloResults(results) =>
      if |results| > 0 && results[0].boxes.Some? then results[0].boxes.value else []
  }

  function PersonsFrom(kept: seq<RawBox>): (r: seq<Detection>)
    ensures |r| == |kept|
    ensures forall k :: 0 <= k < |r| ==> r[k] == ToPerson(kept[k])
  {
    seq(|kept|, k requires 0 <= k < |kept| => ToPerson(kept[k]))
  }

  /** What `detect_persons` returns: nothing for a missing frame, a model
      error, no result object or an absent box list; otherwise the boxes of the
      first result object scoring above 0.3, in order, each tagged "person"
      with its score as confidence and its corners truncated toward zero. */
  function DetectedPersons(d: YoloDetector, frame: Option<Frame>): (r: seq<Detection>)
    ensures frame.None? ==> r == []
    ensures frame.Some? ==> |r| <= |FirstBoxes(d.model(frame.value))|
    ensures frame.Some? && (d.model(frame.value).YoloError? || d.model(frame.value).results == [])
      ==> r == []
    ensures (frame.Some? && d.model(frame.value).YoloResults? && |d.model(frame.value).results| > 0
             && d.model(frame.value).results[0].boxes.None?) ==> r == []
    ensures forall k :: 0 <= k < |r| ==> r[k].cls == PersonClass && r[k].confidence > PersonThreshold
  {
    match frame
    case None => []
    case Some(f) =>
      var kept := Selected(FirstBoxes(d.model(f)), Confident());
      assert forall k :: 0 <= k < |kept| ==> kept[k].score > PersonThreshold;
      PersonsFrom(kept)
  }

  /** The persons are exactly the confident boxes of the first result, in
      their original order (see `Common.SelectedIsOrderedSubsequence`). */
  lemma DetectedPersonsInOrder(d: YoloDetector, f: Frame)
    ensures var boxes := FirstBoxes(d.model(f));
      var ix := SelectedIndices(boxes, Confident());
      var r := DetectedPersons(d, Some(f));
      && |r| == |ix|
      && (forall k :: 0 <= k < |ix| ==> ix[k] < |boxes| && r[k] == ToPerson(boxes[ix[k]]))
      && (forall k, l :: 0 <= k < l < |ix| ==> ix[k] < ix[l])
      && (forall i :: 0 <= i < |boxes| ==> (boxes[i].score > PersonThreshold <==> i in ix))
  {
    SelectedIsOrderedSubsequence(FirstBoxes(d.model(f)), Confident());
  }

  /** Only the first result object matters. */
  lemma OnlyFirstResultUsed(d: YoloDetector, d': YoloDetector, f: Frame)
    requires d.model(f).YoloResults? && d'.model(f).YoloResults?
    requires |d.model(f).results| > 0 && |d'.model(f).results| > 0
    requires d.model(f).results[0] == d'.model(f).results[0]
    ensures DetectedPersons(d, Some(f)) == DetectedPersons(d', Some(f))
  {
  }

  /** Runs the model on a frame and keeps the confident boxes one by one. */
  method DetectPersons(d: YoloDetector, frame: Option<Frame>) returns (dets: seq<Detection>)
    ensures dets == DetectedPersons(d, frame)
  {
    dets := [];
    if frame.None? {
      return;
    }
    var run := d.model(frame.value);
    if run.YoloError? {
      return;
    }
    if |run.results| > 0 {
      var result := run.results[0];
      if result.boxes.Some? && |result.boxes.value| > 0 {
        var boxes := result.boxes.value;
        ghost var keep := Confident();
        var i := 0;
        while i < |boxes|
          invariant 0 <= i <= |boxes|
          invariant |dets| == |Selected(boxes[..i], keep)|
          invariant forall k :: 0 <= k < |dets| ==> dets[k] == ToPerson(Selected(boxes[..i], keep)[k])
        {
          var box := boxes[i];
          if box.score > PersonThreshold {
            dets := dets + [Detection(BBox(Trunc(box.x1), Trunc(box.y1), Trunc(box.x2), Trunc(box.y2)),
                                      box.score, PersonClass)];
          }
          assert keep(box) == (box.score > PersonThreshold);
          SelectedPrefix(boxes, keep, i);
          i := i + 1;
        }
        assert boxes[..i] == boxes;
        assert dets == PersonsFrom(Selected(boxes, keep));
      }
    }
  }
}
